=== FILE: README.md ===
# ToolBox Online: a verified model of the session and admin logic

ToolBox Online is a React single-page application. Users see a dashboard
("ToolBox") of external tools that an administrator has granted them.
Registration goes through a waiting list: an administrator approves a
request, creates the user's profile and picks the tools the profile may use.
Everything is stored in a hosted database.

This project models the sequential decision logic of that application as
pure Dafny functions over small immutable datatypes, and proves properties
of it:

- **`Session`**: the application shell's state machine (`src/App.tsx`).
  - The views are login, onboarding, toolbox and admin.
  - It tracks the signed-in user or administrator and the permitted, active and selected lists.
  - It keeps one session snapshot in local storage.
  - It handles restore on boot, user login, admin login, onboarding completion, back-to-onboarding and logout.
  - The central invariant is that the active tools are the permitted tools of the selected categories. It is proved for every reachable state (`RunKeepsInv`), together with the snapshot round trip.
- **`Admin`**: the administrator console (`src/pages/AdminPage.tsx`).
  - Approving a registration, with its compensating profile delete.
  - Denying a registration.
  - Replacing a user's permissions.
  - The category-delete guard.
  - The admin create/edit form.
  - The tool-selection helpers, and the grouping of tools by category.
- **`Login`**: the login decision chain and the registration checks (`src/pages/LoginPage.tsx`).
- **`Toolbox`**: the dashboard (`src/pages/ToolboxPage.tsx`).
  - Filtering by category and search text.
  - The lock on tools that were not granted.
  - The category-filter reset.
  - YouTube links to embed URLs.
  - The tutorial list.
  - The theme switch.
- **`Onboarding`**: the category picker (`src/pages/OnboardingPage.tsx`).
- **`Types`**: the records and enumerations of `src/types.ts`.
- Supporting modules:
  - `Store` is the abstract remote store. It holds profiles, grants as a set of (profile id, tool id) pairs, the waiting list, categories and tool rows. A handler returns an `Effect`: its outcome, the new store and the trace of remote calls it made.
  - `Seqs` models JavaScript's `filter`, `includes`, `indexOf`, `split` and `pop`.
  - `InsertionSet` models a JavaScript `Set`, whose iteration order is the order of first insertion.
  - `Catalog` is the sorted list of distinct categories.
  - `Wrappers` provides `Option`.

Every remote call is all-or-nothing. Whether it succeeds is an explicit
oracle parameter: a `bool`, a record of `bool`s, or an `Option` whose
`None` means the call failed. Each handler is one atomic sequence of such
calls. JavaScript's `toLowerCase` is an uninterpreted parameter `lower`.

### Behaviour of the code as written

The model keeps these behaviours of the code, each of which a reader
might not expect:

- **Catalogue fetch failures are swallowed.** `fetchAllTools` catches its own errors (`src/App.tsx:133-136`). Restore and login carry on with the old catalogue.
  - A failed grants query after login does log out.
- **The snapshot's `view` string is not validated.** A snapshot with a user and any non-empty view other than `'toolbox'` resumes onboarding, even `'admin'` without the admin flag.
- **Admin login stores no user.** The login screen calls the admin callback with no argument (`src/pages/LoginPage.tsx:71`), so the stored admin snapshot has no user (`Session.AdminLoginStoresNoUser`).
- **The compensating profile delete is not checked.** Its result is ignored (`src/pages/AdminPage.tsx:253`). If that delete fails, the new profile remains in the store (`Admin.ApprovalStates`).
- **Registration duplicate checks use `.single()` and ignore query errors.** A failed query, or an email that matches two or more rows, reads as "not found" (`Login.DuplicateProfilesSlipThrough`).
- **The category-delete guard ignores its query error.** When that query fails, the delete goes ahead (`Admin.FailedGuardQueryStillDeletes`).
- **The registration handler checks only that the two passwords match** (`src/pages/LoginPage.tsx:95-99`). The handler itself checks nothing about their length or content; the form's `required` and `type="email"` attributes are browser checks that run before it.
- **Stored JSON that is not an object is discarded only after the catalogue is fetched.** Text that is not JSON makes the parse throw before the fetch. A stored `null` or other non-object value parses, the catalogue is fetched, and only then is the entry removed.

## Model

| member | source | states |
|---|---|---|
| Types.ParseDifficulty | src/types.ts:9 | A stored difficulty parses exactly when it is one of "Básico", "Intermediário", "Avançado", and parsing inverts the spelling table |
| Types.ParseToolStatus | src/types.ts:11 | A tool status is exactly "ativo" or "inativo"; parsing inverts the spelling table and rejects anything else |
| Types.ParseWaitingStatus | src/types.ts:25 | A request status is exactly "pendente", "aprovado" or "rejeitado"; parsing inverts the spelling table |
| Types.ParseLevel | src/types.ts:32 | A user level is exactly "Iniciante", "Intermediário" or "Avançado"; parsing inverts the spelling table |
| Seqs.SplitJoin | src/pages/ToolboxPage.tsx:18 | `split` with a non-empty separator loses nothing: joining the pieces with the separator gives back the string |
| Seqs.SplitPiecesFree | src/pages/ToolboxPage.tsx:18 | No piece produced by `split` contains the separator |
| Seqs.SplitSingle | src/pages/ToolboxPage.tsx:18 | `split` yields a single piece exactly when the separator does not occur |
| Seqs.SplitLastPiece | src/pages/ToolboxPage.tsx:18 | `split('/').pop()` is a suffix of the URL without '/', and is either the whole URL or starts right after a '/' |
| Seqs.IndexOf | src/pages/ToolboxPage.tsx:18 | `indexOf` finds the first occurrence: it occurs there and nowhere earlier; when absent it occurs nowhere |
| InsertionSet.Toggle | src/pages/AdminPage.tsx:192-200 | Toggling a tool id flips that id's membership and leaves every other id's membership unchanged, without duplicates |
| Catalog.SortedCategories | src/pages/OnboardingPage.tsx:15 | The category list holds exactly the catalogue's categories, each once, in strictly increasing code order |
| Catalog.SortedUnique | src/pages/OnboardingPage.tsx:15 | A strictly sorted list is determined by its elements, so the category list depends only on the set of categories |
| Login.Single | src/pages/LoginPage.tsx:60 | `.single()` returns a row exactly when the query succeeds with exactly one match, and the row is one of the matches |
| Login.LookupProfile | src/pages/LoginPage.tsx:55-60 | The looked-up profile is a stored profile with that email and password, found exactly when the query succeeds with one match |
| Login.DecideLogin | src/pages/LoginPage.tsx:62-75 | No row gives the bad-credentials message; an inactive row gives the disabled message; the admin callback fires iff active and admin; the user callback fires iff active and not admin, with `{id, name: nome}` |
| Login.LoginSuccessIsJustified | src/pages/LoginPage.tsx:54-80 | Any successful login means the query succeeded, exactly one stored profile matches, it is active, and its admin flag alone picks the callback |
| Login.InactiveAdminRejected | src/pages/LoginPage.tsx:66-71 | The active check comes first: an inactive administrator gets the disabled-account message |
| Login.HandleRegister | src/pages/LoginPage.tsx:83-119 | Mismatched passwords make no store call; then a profile with the email gives 'already registered'; then a pending entry with the email gives 'already on the waiting list'; otherwise the entry is inserted, and registration succeeds iff that insert succeeds, adding one `pendente` entry and changing nothing else |
| Login.DuplicateProfilesSlipThrough | src/pages/LoginPage.tsx:102-103 | An email held by two profiles is not recognised as taken, and the registration proceeds to the insert |
| Session.ToolsForCategories | src/App.tsx:164-166 | The active tools are an order-preserving selection of the permitted tools, holding exactly those whose category is selected |
| Session.NoCategoriesNoTools | src/App.tsx:164-166 | With no category selected no tool is active |
| Session.Restore | src/App.tsx:140-184 | No snapshot, or text that is not JSON, stays on login with nothing stored and nothing fetched; JSON that is not an object is removed after the catalogue is fetched; an admin snapshot resumes admin with the stored user as administrator and every user-side field at its initial value, whatever else it holds; a snapshot lacking user or view is removed and leaves every field at its initial value; a user with view 'toolbox' resumes the toolbox with lists defaulting to empty and the active tools recomputed; any other non-empty view resumes onboarding; for every stored snapshot the catalogue is the fetched one, or empty when the fetch fails |
| Session.ActiveGrantedTools | src/App.tsx:201-203 | The permitted tools are exactly the granted rows whose tool exists and is `ativo` |
| Session.Logout | src/App.tsx:264-272 | After logout nothing is stored, user and admin are cleared, all three lists are empty, the view is login, and the catalogue is kept |
| Session.LoginSuccess | src/App.tsx:186-232 | A failed grants query logs out; otherwise the view is onboarding, the permitted tools are the active granted ones, and the stored snapshot is `{user, view: 'onboarding', permittedTools}`; on both paths the catalogue is the fetched one, or the previous one when the fetch fails |
| Session.AdminLoginSuccess | src/App.tsx:254-262 | Admin login shows the admin view and stores `{isAdmin: true, view: 'admin', user}`; the user-side fields are untouched; the catalogue is the fetched one, or the previous one when the fetch fails |
| Session.OnboardingComplete | src/App.tsx:234-251 | Completion shows the toolbox, activates exactly the permitted tools of the selected categories, and stores the snapshot holding user, permitted tools and categories; the active tools keep the permitted order, and the catalogue and the administrator are untouched |
| Session.BackToOnboarding | src/App.tsx:274-279 | Only the snapshot's view field becomes 'onboarding' (an empty snapshot when none is stored); storage that is not JSON, or not an object, makes the code throw and nothing changes |
| Session.RestoreEstablishesInv | src/App.tsx:140-184 | Every restored state satisfies the invariant: active = permitted tools of the selected categories, a user on onboarding/toolbox, an empty login, and a toolbox snapshot that resumes it |
| Session.NextPreservesInv | src/App.tsx:186-279 | Each login, completion, back-to-onboarding and logout transition preserves the invariant |
| Session.RunKeepsInv | src/App.tsx:140-279 | Every state reachable from boot by any sequence of events satisfies the invariant |
| Session.ReloadResumesToolbox | src/App.tsx:156-168 | Reloading on the dashboard restores the same view, user, permitted tools, categories and active tools |
| Session.OnboardingSnapshotRoundTrip | src/App.tsx:238-247 | Restoring the snapshot written at onboarding completion gives the toolbox with the same permitted tools, categories and active tools |
| Session.AdminLoginStoresNoUser | src/pages/LoginPage.tsx:71 | An admin login through the login screen ends in the admin view with no admin user and a stored snapshot without a user |
| Session.LogoutThenReloadStartsAtLogin | src/App.tsx:264-272 | Logout empties local storage, so a reload afterwards starts at login with nothing stored |
| Session.BackThenReloadResumesOnboarding | src/App.tsx:274-279 | Going back from the dashboard changes only the stored view, so a reload resumes onboarding with the same user and permitted tools |
| Admin.SelectAllInCategory | src/pages/AdminPage.tsx:214-226 | "Select all" adds, and "unselect all" removes, exactly that category's tool ids; every other id keeps its membership |
| Admin.AllSelected | src/pages/AdminPage.tsx:667-668 | The category box is ticked iff the category is non-empty and every one of its tools is selected |
| Admin.SelectAllThenAllSelected | src/pages/AdminPage.tsx:214-226 | After "select all" on a non-empty category its box is ticked |
| Admin.UnselectAllThenNoneSelected | src/pages/AdminPage.tsx:214-226 | After "unselect all" none of the category's tools is selected |
| Admin.GroupToolsKeys | src/pages/AdminPage.tsx:64-71 | Grouping creates a bucket for exactly the keys (category, or 'Outros' when empty) that occur |
| Admin.GroupToolsBucket | src/pages/AdminPage.tsx:64-71 | Each bucket holds precisely the tools with its key, in input order |
| Admin.ExactlyOneGroup | src/pages/AdminPage.tsx:64-71 | Every tool is in the bucket of its own key and in no other bucket |
| Admin.ConfirmApproval | src/pages/AdminPage.tsx:228-265 | The outcome is fixed by the first failing call: an empty selection makes no call; a failed profile insert changes nothing; a failed grant insert fires the compensating delete exactly once; a failed status update leaves profile and grants and is followed by no rollback call; every outcome fixes the exact call list; when every call succeeds the request becomes `aprovado`, and only then |
| Admin.GrantRowsExact | src/pages/AdminPage.tsx:246-251 | The grant rows are one per selected tool id, each paired with the new profile id |
| Admin.DeleteAppendedProfile | src/pages/AdminPage.tsx:251-255 | Deleting the profile just created restores the profile list exactly |
| Admin.ApprovalStates | src/pages/AdminPage.tsx:228-258 | An approval leaves one of four stores: untouched, the new profile alone (compensating delete failed), profile plus grants (status update failed), or everything with the request approved |
| Admin.ApprovedUserCanLogIn | src/pages/AdminPage.tsx:238-258 | A fully approved registrant, whose credentials no profile had before, can log in as an ordinary user under the new profile id |
| Admin.RolledBackApprovalCannotLogIn | src/pages/AdminPage.tsx:251-255 | After a rolled-back approval the registrant's credentials are still rejected as incorrect |
| Admin.DenyUser | src/pages/AdminPage.tsx:267-276 | Denying makes one status update; on success only that request becomes `rejeitado`, on failure nothing changes |
| Admin.DenyOnlyTouchesThatRequest | src/pages/AdminPage.tsx:270 | A denial keeps every entry in place, changes only the denied request's status, and leaves other requests unchanged |
| Admin.ConfirmEditPermissions | src/pages/AdminPage.tsx:374-405 | The permissions are saved iff the delete succeeds and the insert, when needed, succeeds; a failed delete changes nothing; on success the user's grants are exactly the selection; other users' grants never change; an empty selection leaves no grants and makes no insert; a non-empty selection is always inserted after a successful delete, as the second and last call; a failed insert leaves the user with none |
| Admin.DeleteCategoryGuarded | src/pages/AdminPage.tsx:299-314 | The delete is refused, with the store unchanged, iff the guard query succeeds and a tool uses the category; otherwise the category is deleted iff the delete call succeeds, and a delete removes that category only |
| Admin.FailedGuardQueryStillDeletes | src/pages/AdminPage.tsx:302-308 | When the guard query fails, a category that tools still use reaches the delete call |
| Admin.SubmitAdmin | src/pages/AdminPage.tsx:407-440 | Creating an administrator requires a password and then adds an active admin; editing gives the profile the form's name and email, keeps the stored password when the field is empty, makes it an active admin and changes no other profile; once the password rule passes, exactly one update (editing) or insert (creating) is issued and the outcome is saved iff that call succeeds; a failed call changes nothing |
| Admin.CreatedAdminCanLogIn | src/pages/AdminPage.tsx:426-430 | A newly created administrator, whose credentials no profile had before, can log in and reaches the admin console |
| Store.DeleteProfileById | src/pages/AdminPage.tsx:253 | The delete removes every profile with that id and keeps every other profile |
| Toolbox.FilteredTools | src/pages/ToolboxPage.tsx:42-50 | The shown tools are an order-preserving selection of the catalogue holding exactly the tools that match the category ('all' matches every tool) and the case-folded search; 'all' with an empty search shows the whole catalogue |
| Toolbox.IsLocked | src/pages/ToolboxPage.tsx:128 | A tool is locked iff no permitted tool has its id |
| Toolbox.ResetCategory | src/pages/ToolboxPage.tsx:33-40 | The filter becomes 'all' when there are no categories or when the choice is neither 'all' nor listed; otherwise it is kept |
| Toolbox.ResetCategoryIdempotent | src/pages/ToolboxPage.tsx:33-40 | Applying the reset a second time changes nothing, so the effect settles after one run |
| Toolbox.VideoId | src/pages/ToolboxPage.tsx:18 | The id is the non-empty text after the first 'v=' up to the next 'v=' or the end, and contains no 'v='; when that text is empty or there is no 'v=', it is the last '/' segment |
| Toolbox.QueryIdUnique | src/pages/ToolboxPage.tsx:18 | At most one text is the query id: the text after the first 'v=' is cut at the very next 'v=' |
| Toolbox.LastSegmentUnique | src/pages/ToolboxPage.tsx:18 | At most one text is the last '/' segment |
| Toolbox.VideoIdDetermined | src/pages/ToolboxPage.tsx:18 | Any text that is the query id when there is one, or else the last '/' segment, equals the computed video id |
| Toolbox.QueryIdPiece | src/pages/ToolboxPage.tsx:18 | `split('v=')[1]` exists iff 'v=' occurs, is the text after its first occurrence, and is non-empty exactly when a query id is present |
| Toolbox.GetVideoSource | src/pages/ToolboxPage.tsx:15-23 | There is no source iff the URL is missing or empty or names neither youtube.com nor youtu.be; otherwise it is the embed prefix followed by the video id |
| Toolbox.TutorialVideos | src/pages/ToolboxPage.tsx:52-54 | The tutorial list is the order-preserving selection of the shown tools that have a playable video |
| Toolbox.CurrentVideoIsFirstPlayable | src/pages/ToolboxPage.tsx:56-62 | The player shows a video iff some shown tool has a playable one, and then it is the video of the first such tool |
| Toolbox.ThemeIndex | src/pages/ToolboxPage.tsx:67 | `indexOf` on the theme list: the theme's position, or -1 when it is not a theme |
| Toolbox.NextTheme | src/pages/ToolboxPage.tsx:64-69 | The theme cycles dark to light to neon to dark; a missing, empty or unknown theme goes to dark |
| Toolbox.ThemeCycle | src/pages/ToolboxPage.tsx:64-69 | Three switches bring each theme back to itself |
| Onboarding.Click | src/pages/OnboardingPage.tsx:19-27 | A click on a category the user lacks access to (line 51) changes nothing; otherwise it flips that category's membership and leaves the others unchanged |
| Onboarding.SelectionStaysPermitted | src/pages/OnboardingPage.tsx:45-51 | Whatever listed buttons are clicked, the selection only holds listed categories the user has access to |
| Onboarding.ClickTwice | src/pages/OnboardingPage.tsx:19-27 | Clicking the same category twice restores the set of selected categories |
| Onboarding.Submit | src/pages/OnboardingPage.tsx:29-35 | The completion callback is called iff the selection is non-empty, with the same categories each once; otherwise the alert is shown |

## Left out

- The browser's form checks are not modelled. Every login and registration input is `required` and the email inputs are `type="email"` (`src/pages/LoginPage.tsx:130-133`, `155-168`), so the browser refuses empty fields or a malformed email before the handler runs. `Login.DecideLogin` and `Login.HandleRegister` model the handlers and accept any text.
- The anti-inspection block and theme bootstrapping at start-up (`src/App.tsx:27-97`) are left out. They are DOM events, timers and user-agent checks, with no core logic.
- The AI chat widget, the tool re-login page and the presentation components (header, modal, loading overlay, tool card) are left out. They are remote API clients or markup.
- The query syntax of the hosted store is not modelled, and neither is the defaulting of missing row fields into a `Tool`. The catalogue and the grant rows arrive already converted.
- Asynchrony is not modelled:
  - Each handler is one atomic call sequence.
  - The waiting-list poll, the toasts, the loading overlay, `setTimeout` and unmount races are left out.
- `toLowerCase` is an uninterpreted parameter. Unicode case folding is not modelled.
- `localeCompare` only orders the approval groups for display and is left out. The grouping itself is modelled.
- `Catalog.SortedCategories`: JavaScript's default sort compares UTF-16 code units, while the model compares Unicode code points. The two orders differ only for characters outside the Basic Multilingual Plane.
- The JSON round trip through local storage is taken to be lossless on the snapshot record.
- The early `if (!x) return` guards on the handlers' dialog state are not modelled. Those handlers can only be reached with the dialog open.
- The console's other handlers are outside the modelled core:
  - creating and updating categories;
  - deleting administrators;
  - toggling a user's activity;
  - the tool form;
  - the dialogs' expand/collapse state;
  - the list-refresh queries.
- Login.HandleRegister: when the insert fails the outcome is `RegisterFailed` with the fixed message. The store's own error text, which the source shows in preference, is not modelled.
- Alert, toast and error texts of the console's handlers are not modelled. Only their outcomes are.
- The database defaults are written into the model rather than read from the database: a new waiting entry is `pendente`, and a new profile is active and not an administrator.
- Toolbox.CurrentVideo: its own contract only says a video implies a non-empty list. `Toolbox.CurrentVideoIsFirstPlayable` states which video plays.
- Admin.GroupTools: the code groups into a plain object `{}` (`src/pages/AdminPage.tsx:64-71`). A category named after an `Object.prototype` member, such as `constructor` or `toString`, finds an inherited, truthy value there. The following `push` then throws and the approval dialog breaks. The model's map builds an ordinary bucket for every name, so it does not model that crash.
- Onboarding.ClickAll: its own contract states only that the selection stays duplicate-free. Which categories it can hold is `Onboarding.SelectionStaysPermitted`.


=== FILE: admin.dfy ===
/** The administrator console's decision logic: the grouped tool-selection
    helpers, approving or denying a registration, replacing a user's
    permissions, the category-delete guard and the admin create/edit form.
    Each handler is one atomic sequence of store calls; which calls fail is
    given by an oracle record. */
module Admin {
  import opened Wrappers
  import opened Types
  import opened Store
  import opened InsertionSet
  import Seqs
  import Login

  // ---------------------------------------------------------------------
  // Tool selection

  function ToolIds(tools: seq<Tool>): (r: seq<int>)
    ensures |r| == |tools|
    ensures forall i :: 0 <= i < |tools| ==> r[i] == tools[i].id
  {
    seq(|tools|, i requires 0 <= i < |tools| => tools[i].id)
  }

  /** The per-category "select all" box: adds (or removes) exactly that
      category's tool ids; membership of every other id is unchanged. */
  function SelectAllInCategory(sel: seq<int>, toolsInCategory: seq<Tool>, select: bool): (r: seq<int>)
    requires NoDup(sel)
    ensures NoDup(r)
    ensures select ==> Elems(r) == Elems(sel) + Elems(ToolIds(toolsInCategory))
    ensures !select ==> Elems(r) == Elems(sel) - Elems(ToolIds(toolsInCategory))
    ensures forall id :: id !in Elems(ToolIds(toolsInCategory)) ==> (id in Elems(r) <==> id in Elems(sel))
    ensures select ==> sel <= r
  {
    if select then AddAll(sel, ToolIds(toolsInCategory))
    else RemoveAll(sel, ToolIds(toolsInCategory))
  }

  /** How many of a category's tools are selected. */
  function SelectedCount(toolsInCategory: seq<Tool>, sel: seq<int>): nat {
    |Seqs.Filter(toolsInCategory, (t: Tool) => t.id in sel)|
  }

  /** The category checkbox is ticked when the selected count is non-zero and
      equals the category's size, that is, when the category is non-empty and
      every one of its tools is selected. */
  function AllSelected(toolsInCategory: seq<Tool>, sel: seq<int>): (r: bool)
    ensures r <==> |toolsInCategory| > 0 &&
                   forall i :: 0 <= i < |toolsInCategory| ==> toolsInCategory[i].id in sel
  {
    Seqs.FilterFullLength(toolsInCategory, (t: Tool) => t.id in sel);
    var count := SelectedCount(toolsInCategory, sel);
    count > 0 && count == |toolsInCategory|
  }

  /** Ticking "select all" on a non-empty category makes it all-selected. */
  lemma SelectAllThenAllSelected(sel: seq<int>, toolsInCategory: seq<Tool>)
    requires NoDup(sel)
    requires |toolsInCategory| > 0
    ensures AllSelected(toolsInCategory, SelectAllInCategory(sel, toolsInCategory, true))
  {
    var ids := ToolIds(toolsInCategory);
    var on := SelectAllInCategory(sel, toolsInCategory, true);
    forall i | 0 <= i < |toolsInCategory| ensures toolsInCategory[i].id in on {
      assert ids[i] in Elems(ids);
      ElemsMembership(on, toolsInCategory[i].id);
    }
  }

  /** Unticking "select all" leaves none of the category's tools selected. */
  lemma UnselectAllThenNoneSelected(sel: seq<int>, toolsInCategory: seq<Tool>)
    requires NoDup(sel)
    ensures SelectedCount(toolsInCategory, SelectAllInCategory(sel, toolsInCategory, false)) == 0
  {
    var ids := ToolIds(toolsInCategory);
    var off := SelectAllInCategory(sel, toolsInCategory, false);
    forall i | 0 <= i < |toolsInCategory| ensures toolsInCategory[i].id !in off {
      assert ids[i] in Elems(ids);
      ElemsMembership(off, toolsInCategory[i].id);
    }
    Seqs.FilterNone(toolsInCategory, (t: Tool) => t.id in off);
  }

  // ---------------------------------------------------------------------
  // Grouping

  /** The group a tool is listed under: its category, or 'Outros' when empty. */
  function GroupKey(t: Tool): string {
    if t.category == "" then "Outros" else t.category
  }

  /** The tools of group `k`, in input order. */
  function GroupMembers(tools: seq<Tool>, k: string): seq<Tool> {
    Seqs.Filter(tools, (t: Tool) => GroupKey(t) == k)
  }

  /** The `reduce` that buckets the catalogue by group key, appending each
      tool to its bucket in turn. */
  function GroupTools(tools: seq<Tool>): map<string, seq<Tool>>
    decreases |tools|
  {
    if |tools| == 0 then map[]
    else
      var acc := GroupTools(tools[..|tools| - 1]);
      var t := tools[|tools| - 1];
      var k := GroupKey(t);
      acc[k := (if k in acc then acc[k] else []) + [t]]
  }

  /** The group keys that occur in `tools`. */
  function KeysOf(tools: seq<Tool>): set<string> {
    set t | t in tools :: GroupKey(t)
  }

  /** Grouping creates a bucket for exactly the group keys that occur. */
  lemma {:induction false} GroupToolsKeys(tools: seq<Tool>)
    ensures GroupTools(tools).Keys == KeysOf(tools)
    decreases |tools|
  {
    if |tools| > 0 {
      var init := tools[..|tools| - 1];
      assert tools == init + [tools[|tools| - 1]];
      GroupToolsKeys(init);
    }
  }

  /** Appending a tool extends its own group's members and no other. */
  lemma GroupMembersSnoc(init: seq<Tool>, t: Tool, k: string)
    ensures GroupMembers(init + [t], k) == GroupMembers(init, k) + (if GroupKey(t) == k then [t] else [])
  {
    Seqs.FilterAppend(init, [t], (x: Tool) => GroupKey(x) == k);
    assert [t][1..] == [];
  }

  /** A key with no bucket has no members. */
  lemma GroupMembersAbsent(tools: seq<Tool>, k: string)
    requires k !in GroupTools(tools)
    ensures GroupMembers(tools, k) == []
  {
    GroupToolsKeys(tools);
    assert forall i :: 0 <= i < |tools| ==> GroupKey(tools[i]) in KeysOf(tools);
    Seqs.FilterNone(tools, (x: Tool) => GroupKey(x) == k);
  }

  /** Each bucket holds precisely the tools with its key, in input order. */
  lemma {:induction false} GroupToolsBucket(tools: seq<Tool>, k: string)
    requires k in GroupTools(tools)
    ensures GroupTools(tools)[k] == GroupMembers(tools, k)
    decreases |tools|
  {
    var init := tools[..|tools| - 1];
    var t := tools[|tools| - 1];
    assert tools == init + [t];
    GroupMembersSnoc(init, t, k);
    if k != GroupKey(t) || k in GroupTools(init) {
      GroupToolsBucket(init, k);
    } else {
      GroupMembersAbsent(init, k);
    }
  }

  /** Every tool sits in exactly one group: the one named by its key. */
  lemma ExactlyOneGroup(tools: seq<Tool>, t: Tool, k: string)
    requires t in tools
    ensures GroupKey(t) in GroupTools(tools)
    ensures t in GroupTools(tools)[GroupKey(t)]
    ensures k != GroupKey(t) && k in GroupTools(tools) ==> t !in GroupTools(tools)[k]
  {
    GroupToolsKeys(tools);
    GroupToolsBucket(tools, GroupKey(t));
    var i :| 0 <= i < |tools| && tools[i] == t;
    assert tools[i] in GroupMembers(tools, GroupKey(t));
    if k != GroupKey(t) && k in GroupTools(tools) {
      GroupToolsBucket(tools, k);
    }
  }

  // ---------------------------------------------------------------------
  // Approving a registration

  datatype ApprovalOutcome = EmptySelection | ProfileFailed | GrantsFailed | StatusFailed | Approved

  /** The id the store gives the new profile and which calls succeed:
      profile insert, grant insert, the compensating profile delete (whose
      result the handler does not check) and the status update. */
  datatype ApprovalOracle = ApprovalOracle(
    newProfileId: string,
    profileOk: bool,
    grantsOk: bool,
    rollbackOk: bool,
    statusOk: bool)

  /** The profile created from a registration request: active, and not an
      administrator (the table default). */
  function NewProfile(w: WaitingUser, id: string): Profile {
    Profile(id, w.nome, w.email, w.password, true, false)
  }

  /** Deleting the profile just appended restores the profile list. */
  lemma {:induction false} DeleteAppendedProfile(ps: seq<Profile>, p: Profile)
    requires forall i :: 0 <= i < |ps| ==> ps[i].id != p.id
    ensures DeleteProfileById(ps + [p], p.id) == ps
    decreases |ps|
  {
    if |ps| == 0 {
      assert [p][1..] == [];
    } else {
      assert (ps + [p])[1..] == ps[1..] + [p];
      DeleteAppendedProfile(ps[1..], p);
      assert ps == [ps[0]] + ps[1..];
    }
  }

  /** Confirming an approval with the selected tool ids. The store hands
      out a profile id no existing profile has. */
  function ConfirmApproval(db: Db, w: WaitingUser, sel: seq<int>, o: ApprovalOracle): (e: Effect<ApprovalOutcome>)
    requires !HasProfileId(db, o.newProfileId)
    // an empty selection is refused before any store call
    ensures e.outcome == EmptySelection <==> |sel| == 0
    ensures |sel| == 0 ==> e.calls == [] && e.db == db
    // a failed profile insert changes nothing
    ensures e.outcome == ProfileFailed <==> |sel| > 0 && !o.profileOk
    ensures e.outcome == ProfileFailed ==> e.db == db && e.calls == [InsertProfile(o.newProfileId)]
    // a failed grant insert fires the compensating delete exactly once
    ensures e.outcome == GrantsFailed ==>
      e.calls == [InsertProfile(o.newProfileId), InsertGrants(o.newProfileId, sel), DeleteProfile(o.newProfileId)]
    ensures e.outcome == GrantsFailed && o.rollbackOk ==> e.db == db
    ensures e.outcome == GrantsFailed && !o.rollbackOk ==>
      e.db == db.(profiles := db.profiles + [NewProfile(w, o.newProfileId)])
    // once grants exist, exactly the selection's rows are added, so the new
    // profile holds at least the selected tools (GrantRowsExact)
    ensures e.outcome == StatusFailed || e.outcome == Approved ==>
      e.db.profiles == db.profiles + [NewProfile(w, o.newProfileId)] &&
      e.db.grants == db.grants + GrantRows(o.newProfileId, Elems(sel)) &&
      GrantsOf(e.db.grants, o.newProfileId) >= Elems(sel)
    // which failure point is reached is decided by the oracle alone
    ensures e.outcome == GrantsFailed <==> |sel| > 0 && o.profileOk && !o.grantsOk
    ensures e.outcome == StatusFailed <==> |sel| > 0 && o.profileOk && o.grantsOk && !o.statusOk
    ensures e.outcome == Approved <==> |sel| > 0 && o.profileOk && o.grantsOk && o.statusOk
    // a failed status update stops the approval: no rollback follows
    ensures e.outcome == StatusFailed || e.outcome == Approved ==>
      e.calls == [InsertProfile(o.newProfileId), InsertGrants(o.newProfileId, sel), UpdateWaiting(w.id, Aprovado)]
    // the request is marked approved only on full success
    ensures e.outcome == Approved ==> e.db.waiting == SetWaitingStatus(db.waiting, w.id, Aprovado)
    ensures e.outcome != Approved ==> e.db.waiting == db.waiting
    ensures e.db.categories == db.categories && e.db.toolRows == db.toolRows
  {
    var id := o.newProfileId;
    if |sel| == 0 then Effect(EmptySelection, db, [])
    else if !o.profileOk then Effect(ProfileFailed, db, [InsertProfile(id)])
    else
      var db1 := db.(profiles := db.profiles + [NewProfile(w, id)]);
      if !o.grantsOk then
        var calls := [InsertProfile(id), InsertGrants(id, sel), DeleteProfile(id)];
        if o.rollbackOk then
          DeleteAppendedProfile(db.profiles, NewProfile(w, id));
          Effect(GrantsFailed, db1.(profiles := DeleteProfileById(db1.profiles, id)), calls)
        else
          Effect(GrantsFailed, db1, calls)
      else
        var db2 := db1.(grants := db1.grants + GrantRows(id, Elems(sel)));
        assert GrantsOf(db2.grants, id) >= Elems(sel) by {
          forall t | t in Elems(sel) ensures t in GrantsOf(db2.grants, id) {
            assert (id, t) in db2.grants;
          }
        }
        var calls := [InsertProfile(id), InsertGrants(id, sel), UpdateWaiting(w.id, Aprovado)];
        if !o.statusOk then Effect(StatusFailed, db2, calls)
        else Effect(Approved, db2.(waiting := SetWaitingStatus(db2.waiting, w.id, Aprovado)), calls)
  }

  /** The grant rows of one profile: one per tool id, all with that profile. */
  lemma GrantRowsExact(pid: string, toolIds: set<int>)
    ensures GrantsOf(GrantRows(pid, toolIds), pid) == toolIds
    ensures |GrantRows(pid, toolIds)| == |toolIds|
    ensures forall g :: g in GrantRows(pid, toolIds) ==> g.0 == pid && g.1 in toolIds
  {
    var rows := GrantRows(pid, toolIds);
    assert GrantsOf(rows, pid) == toolIds by {
      forall t | t in toolIds ensures t in GrantsOf(rows, pid) {
        assert (pid, t) in rows;
      }
    }
    // rows is the image of toolIds under an injective pairing
    var f := (t: int) => (pid, t);
    assert rows == set t | t in toolIds :: f(t);
    InjectiveImageSize(toolIds, pid);
  }

  lemma {:induction false} InjectiveImageSize(s: set<int>, pid: string)
    ensures |GrantRows(pid, s)| == |s|
    decreases |s|
  {
    if exists t :: t in s {
      var t :| t in s;
      InjectiveImageSize(s - {t}, pid);
      assert GrantRows(pid, s) == GrantRows(pid, s - {t}) + {(pid, t)};
      assert (pid, t) !in GrantRows(pid, s - {t});
    } else {
      assert s == {};
      assert GrantRows(pid, s) == {};
    }
  }

  /** The store states an approval can leave behind, one per failure point:
      untouched; the new profile alone (compensating delete failed); the
      profile with its grants (status update failed); or everything with
      the request approved. */
  lemma ApprovalStates(db: Db, w: WaitingUser, sel: seq<int>, o: ApprovalOracle)
    requires !HasProfileId(db, o.newProfileId)
    ensures var e := ConfirmApproval(db, w, sel, o);
      var withProfile := db.(profiles := db.profiles + [NewProfile(w, o.newProfileId)]);
      var withGrants := withProfile.(grants := db.grants + GrantRows(o.newProfileId, Elems(sel)));
      e.db == db ||
      (e.db == withProfile && e.outcome == GrantsFailed && !o.rollbackOk) ||
      (e.db == withGrants && e.outcome == StatusFailed) ||
      (e.db == withGrants.(waiting := SetWaitingStatus(db.waiting, w.id, Aprovado)) && e.outcome == Approved)
  {
  }

  /** Adding one profile to the store adds its own row to the credential
      matches of its email and password, after the matches already there. */
  lemma CredentialMatchesAppend(db: Db, p: Profile)
    ensures Login.CredentialMatches(db.(profiles := db.profiles + [p]), p.email, p.senha) ==
            Login.CredentialMatches(db, p.email, p.senha) + [p]
  {
    Seqs.FilterAppend(db.profiles, [p], (q: Profile) => q.email == p.email && q.senha == p.senha);
    assert [p][1..] == [];
  }

  /** An approved registrant whose email and password no stored profile
      already had can log in, as an ordinary user with the new profile id. */
  lemma ApprovedUserCanLogIn(db: Db, w: WaitingUser, sel: seq<int>, o: ApprovalOracle)
    requires !HasProfileId(db, o.newProfileId)
    requires ConfirmApproval(db, w, sel, o).outcome == Approved
    requires Login.CredentialMatches(db, w.email, w.password) == []
    ensures Login.HandleLogin(ConfirmApproval(db, w, sel, o).db, w.email, w.password, true) ==
            Login.UserLoggedIn(User(o.newProfileId, w.nome))
  {
    var p := NewProfile(w, o.newProfileId);
    var e := ConfirmApproval(db, w, sel, o);
    CredentialMatchesAppend(db, p);
    assert Login.CredentialMatches(e.db, w.email, w.password) ==
           Login.CredentialMatches(db.(profiles := db.profiles + [p]), p.email, p.senha);
  }

  /** A rolled-back approval leaves no way in: the registrant's credentials
      are rejected exactly as before the attempt. */
  lemma RolledBackApprovalCannotLogIn(db: Db, w: WaitingUser, sel: seq<int>, o: ApprovalOracle)
    requires !HasProfileId(db, o.newProfileId)
    requires ConfirmApproval(db, w, sel, o).outcome == GrantsFailed && o.rollbackOk
    requires Login.CredentialMatches(db, w.email, w.password) == []
    ensures Login.HandleLogin(ConfirmApproval(db, w, sel, o).db, w.email, w.password, true) ==
            Login.LoginFailed(Login.BadCredentialsMessage)
  {
  }

  // ---------------------------------------------------------------------
  // Denying a registration

  datatype DenyOutcome = Denied | DenyFailed

  /** Denying marks the request `rejeitado`; a failed update changes nothing. */
  function DenyUser(db: Db, w: WaitingUser, updateOk: bool): (e: Effect<DenyOutcome>)
    ensures e.calls == [UpdateWaiting(w.id, Rejeitado)]
    ensures e.outcome == Denied <==> updateOk
    ensures updateOk ==> e.db == db.(waiting := SetWaitingStatus(db.waiting, w.id, Rejeitado))
    ensures !updateOk ==> e.db == db
  {
    if updateOk then Effect(Denied, db.(waiting := SetWaitingStatus(db.waiting, w.id, Rejeitado)), [UpdateWaiting(w.id, Rejeitado)])
    else Effect(DenyFailed, db, [UpdateWaiting(w.id, Rejeitado)])
  }

  /** A denied request keeps its place but no longer counts as pending, and
      no other request changes. */
  lemma DenyOnlyTouchesThatRequest(db: Db, w: WaitingUser, i: int)
    requires 0 <= i < |db.waiting|
    ensures var e := DenyUser(db, w, true);
      |e.db.waiting| == |db.waiting| &&
      (db.waiting[i].id == w.id ==> e.db.waiting[i].status == Rejeitado && e.db.waiting[i].email == db.waiting[i].email) &&
      (db.waiting[i].id != w.id ==> e.db.waiting[i] == db.waiting[i])
  {
  }

  // ---------------------------------------------------------------------
  // Replacing a user's permissions

  datatype ReplaceOutcome = PermissionsSaved | DeleteFailed | InsertFailed

  /** Delete every grant of the user, then insert the selection (skipped
      when it is empty). No transaction wraps the two steps. */
  function ConfirmEditPermissions(db: Db, userId: string, sel: seq<int>, deleteOk: bool, insertOk: bool): (e: Effect<ReplaceOutcome>)
    // a failed delete changes nothing
    ensures !deleteOk ==> e.outcome == DeleteFailed && e.db == db && e.calls == [DeleteGrants(userId)]
    // the grants are saved exactly when the delete and any needed insert succeed
    ensures e.outcome == PermissionsSaved <==> deleteOk && (|sel| == 0 || insertOk)
    ensures e.outcome == InsertFailed <==> deleteOk && |sel| > 0 && !insertOk
    // on success the user's grants are exactly the selection
    ensures e.outcome == PermissionsSaved ==> GrantsOf(e.db.grants, userId) == Elems(sel)
    // other users' grants are never touched
    ensures GrantsNotOf(e.db.grants, userId) == GrantsNotOf(db.grants, userId)
    // an empty selection leaves no grants and makes no insert call
    ensures deleteOk && |sel| == 0 ==>
      e.outcome == PermissionsSaved && GrantsOf(e.db.grants, userId) == {} && e.calls == [DeleteGrants(userId)]
    // a failed insert after the delete leaves the user with no grants
    ensures e.outcome == InsertFailed ==> GrantsOf(e.db.grants, userId) == {}
    // a non-empty selection is always inserted after a successful delete
    ensures deleteOk && |sel| > 0 ==> e.calls == [DeleteGrants(userId), InsertGrants(userId, sel)]
    ensures e.db.profiles == db.profiles && e.db.waiting == db.waiting
    ensures e.db.categories == db.categories && e.db.toolRows == db.toolRows
  {
    if !deleteOk then Effect(DeleteFailed, db, [DeleteGrants(userId)])
    else
      var db1 := db.(grants := GrantsNotOf(db.grants, userId));
      assert GrantsOf(db1.grants, userId) == {};
      assert GrantsNotOf(db1.grants, userId) == GrantsNotOf(db.grants, userId);
      if |sel| == 0 then Effect(PermissionsSaved, db1, [DeleteGrants(userId)])
      else
        var calls := [DeleteGrants(userId), InsertGrants(userId, sel)];
        if !insertOk then Effect(InsertFailed, db1, calls)
        else
          var g := db1.grants + GrantRows(userId, Elems(sel));
          GrantRowsExact(userId, Elems(sel));
          assert GrantsOf(g, userId) == Elems(sel) by {
            forall t | t in GrantsOf(g, userId) ensures t in Elems(sel) {
              assert (userId, t) in g;
            }
          }
          assert GrantsNotOf(g, userId) == GrantsNotOf(db.grants, userId);
          Effect(PermissionsSaved, db1.(grants := g), calls)
  }

  // ---------------------------------------------------------------------
  // Deleting a category

  datatype CategoryDeleteOutcome = InUse | CategoryDeleted | CategoryDeleteFailed

  /** Whether some tool uses the category. */
  predicate CategoryInUse(db: Db, categoryId: int) {
    exists i :: 0 <= i < |db.toolRows| && db.toolRows[i].categoryId == categoryId
  }

  function RemoveCategory(categories: seq<Category>, categoryId: int): seq<Category> {
    Seqs.Filter(categories, (c: Category) => c.id != categoryId)
  }

  /** Deleting a category is refused while a tool uses it. The guard's
      query error is ignored: when that query fails the delete is attempted
      regardless. */
  function DeleteCategoryGuarded(db: Db, cat: Category, selectOk: bool, deleteOk: bool): (e: Effect<CategoryDeleteOutcome>)
    ensures e.outcome == InUse <==> selectOk && CategoryInUse(db, cat.id)
    ensures e.outcome == InUse ==> e.db == db && e.calls == [SelectToolsOfCategory(cat.id)]
    ensures e.outcome != InUse ==> e.calls == [SelectToolsOfCategory(cat.id), DeleteCategory(cat.id)]
    ensures e.outcome == CategoryDeleted <==> !(selectOk && CategoryInUse(db, cat.id)) && deleteOk
    ensures e.outcome == CategoryDeleted ==>
      (forall c :: c in e.db.categories ==> c in db.categories && c.id != cat.id) &&
      (forall c :: c in db.categories && c.id != cat.id ==> c in e.db.categories)
    ensures e.outcome == CategoryDeleted && selectOk ==> !CategoryInUse(e.db, cat.id)
    ensures e.outcome != CategoryDeleted ==> e.db == db
    ensures e.db.toolRows == db.toolRows && e.db.profiles == db.profiles && e.db.grants == db.grants
  {
    var calls := [SelectToolsOfCategory(cat.id), DeleteCategory(cat.id)];
    if selectOk && CategoryInUse(db, cat.id) then Effect(InUse, db, [SelectToolsOfCategory(cat.id)])
    else if deleteOk then Effect(CategoryDeleted, db.(categories := RemoveCategory(db.categories, cat.id)), calls)
    else Effect(CategoryDeleteFailed, db, calls)
  }

  /** As written, a failed guard query lets a category that tools still use
      reach the delete call. */
  lemma FailedGuardQueryStillDeletes(db: Db, cat: Category)
    requires CategoryInUse(db, cat.id)
    ensures DeleteCategory(cat.id) in DeleteCategoryGuarded(db, cat, false, true).calls
  {
  }

  // ---------------------------------------------------------------------
  // Creating or editing an administrator

  datatype AdminForm = AdminForm(nome: string, email: string, senha: string)

  datatype AdminOutcome = AdminSaved | PasswordRequired | AdminSaveFailed

  /** The edited profile: active administrator with the form's name and
      email; the password changes only when the form gives one. */
  function EditedAdmin(p: Profile, form: AdminForm): Profile {
    p.(nome := form.nome, email := form.email, isAdmin := true, isActive := true,
       senha := if form.senha != "" then form.senha else p.senha)
  }

  function UpdateAdmins(profiles: seq<Profile>, id: string, form: AdminForm): (r: seq<Profile>)
    ensures |r| == |profiles|
    ensures forall i :: 0 <= i < |r| ==>
      r[i] == if profiles[i].id == id then EditedAdmin(profiles[i], form) else profiles[i]
  {
    seq(|profiles|, i requires 0 <= i < |profiles| =>
      if profiles[i].id == id then EditedAdmin(profiles[i], form) else profiles[i])
  }

  /** Submitting the admin form, editing `editing` when set, creating
      otherwise with the id the store hands out. */
  function SubmitAdmin(db: Db, form: AdminForm, editing: Option<string>, newId: string, ok: bool): (e: Effect<AdminOutcome>)
    // a new administrator needs a password; without one no store call is made
    ensures editing.None? && form.senha == "" ==> e.outcome == PasswordRequired && e.db == db && e.calls == []
    ensures e.outcome == PasswordRequired ==> editing.None? && form.senha == ""
    ensures editing.None? && form.senha != "" && ok ==>
      e.outcome == AdminSaved &&
      e.db == db.(profiles := db.profiles + [Profile(newId, form.nome, form.email, form.senha, true, true)])
    // an edit keeps the stored password when the field is left empty
    ensures editing.Some? ==> |e.db.profiles| == |db.profiles|
    ensures editing.Some? && ok ==> e.outcome == AdminSaved
    ensures editing.Some? && ok ==>
      (forall i :: 0 <= i < |db.profiles| && db.profiles[i].id == editing.value ==>
        e.db.profiles[i].id == editing.value &&
        e.db.profiles[i].nome == form.nome && e.db.profiles[i].email == form.email &&
        e.db.profiles[i].isAdmin && e.db.profiles[i].isActive &&
        e.db.profiles[i].senha == (if form.senha == "" then db.profiles[i].senha else form.senha))
    ensures editing.Some? ==>
      (forall i :: 0 <= i < |db.profiles| && db.profiles[i].id != editing.value ==>
        e.db.profiles[i] == db.profiles[i])
    ensures !ok ==> e.db == db
    // once the password rule passes, the store call alone decides the outcome
    ensures editing.Some? || form.senha != "" ==>
      (e.outcome == AdminSaved <==> ok) && (e.outcome == AdminSaveFailed <==> !ok)
    ensures editing.Some? ==> e.calls == [UpdateProfile(editing.value)]
    ensures editing.None? && form.senha != "" ==> e.calls == [InsertProfile(newId)]
    ensures e.db.grants == db.grants && e.db.waiting == db.waiting
  {
    match editing
    case Some(id) =>
      if ok then Effect(AdminSaved, db.(profiles := UpdateAdmins(db.profiles, id, form)), [UpdateProfile(id)])
      else Effect(AdminSaveFailed, db, [UpdateProfile(id)])
    case None =>
      if form.senha == "" then Effect(PasswordRequired, db, [])
      else if ok then
        Effect(AdminSaved, db.(profiles := db.profiles + [Profile(newId, form.nome, form.email, form.senha, true, true)]), [InsertProfile(newId)])
      else Effect(AdminSaveFailed, db, [InsertProfile(newId)])
  }

  /** A newly created administrator whose email and password no stored
      profile already had can log in, and is sent to the admin console. */
  lemma CreatedAdminCanLogIn(db: Db, form: AdminForm, newId: string)
    requires form.senha != ""
    requires Login.CredentialMatches(db, form.email, form.senha) == []
    ensures Login.HandleLogin(SubmitAdmin(db, form, None, newId, true).db, form.email, form.senha, true) ==
            Login.AdminLoggedIn
  {
    var p := Profile(newId, form.nome, form.email, form.senha, true, true);
    CredentialMatchesAppend(db, p);
  }
}

=== FILE: catalog.dfy ===
/** The category list shown on the onboarding screen and in the dashboard's
    category filter: the distinct categories of the catalogue, sorted with
    JavaScript's default `Array.prototype.sort` order (character codes,
    compared lexicographically). */
module Catalog {
  import opened Types
  import opened InsertionSet

  /** Lexicographic order on strings by character code. */
  predicate LexLess(a: string, b: string)
    decreases |a|
  {
    if |a| == 0 then |b| > 0
    else if |b| == 0 then false
    else if a[0] != b[0] then a[0] < b[0]
    else LexLess(a[1..], b[1..])
  }

  lemma {:induction false} LexLessIrreflexive(a: string)
    ensures !LexLess(a, a)
    decreases |a|
  {
    if |a| > 0 { LexLessIrreflexive(a[1..]); }
  }

  lemma {:induction false} LexLessTransitive(a: string, b: string, c: string)
    requires LexLess(a, b) && LexLess(b, c)
    ensures LexLess(a, c)
    decreases |a|
  {
    if |a| > 0 && a[0] == b[0] && b[0] == c[0] {
      LexLessTransitive(a[1..], b[1..], c[1..]);
    }
  }

  lemma {:induction false} LexLessTotal(a: string, b: string)
    requires a != b
    ensures LexLess(a, b) || LexLess(b, a)
    decreases |a|
  {
    if |a| > 0 && |b| > 0 && a[0] == b[0] {
      LexLessTotal(a[1..], b[1..]);
    }
  }

  /** Strictly increasing, hence also duplicate-free. */
  predicate StrictlySorted(s: seq<string>) {
    forall i, j :: 0 <= i < j < |s| ==> LexLess(s[i], s[j])
  }

  /** Inserts `x` at its place in a strictly sorted list, unless present. */
  function InsertSorted(s: seq<string>, x: string): (r: seq<string>)
    requires StrictlySorted(s)
    ensures StrictlySorted(r)
    ensures Elems(r) == Elems(s) + {x}
    decreases |s|
  {
    if |s| == 0 then [x]
    else if x == s[0] then s
    else if LexLess(x, s[0]) then
      assert StrictlySorted([x] + s) by {
        forall j | 1 <= j < |s| + 1 ensures LexLess(([x] + s)[0], ([x] + s)[j]) {
          if j > 1 { LexLessTransitive(x, s[0], s[j - 1]); }
        }
      }
      ElemsCons(x, s);
      [x] + s
    else
      LexLessTotal(x, s[0]);
      var rest := InsertSorted(s[1..], x);
      var r := [s[0]] + rest;
      assert StrictlySorted(r) by {
        forall j | 1 <= j < |r| ensures LexLess(r[0], r[j]) {
          assert rest[j - 1] in Elems(rest);
          if rest[j - 1] != x {
            var k :| 0 <= k < |s[1..]| && s[1..][k] == rest[j - 1];
            assert s[k + 1] == rest[j - 1];
          }
        }
      }
      assert Elems(r) == Elems(s) + {x} by {
        assert s == [s[0]] + s[1..];
        ElemsCons(s[0], s[1..]);
        ElemsCons(s[0], rest);
      }
      r
  }

  /** The set of category names used by `tools`. */
  function CategoryNames(tools: seq<Tool>): set<string> {
    set t | t in tools :: t.category
  }

  /** `[...new Set(tools.map(t => t.category))].sort()`. */
  function SortedCategories(tools: seq<Tool>): (r: seq<string>)
    ensures StrictlySorted(r)
    ensures Elems(r) == CategoryNames(tools)
    decreases |tools|
  {
    if |tools| == 0 then []
    else
      var r := InsertSorted(SortedCategories(tools[..|tools| - 1]), tools[|tools| - 1].category);
      assert CategoryNames(tools) == CategoryNames(tools[..|tools| - 1]) + {tools[|tools| - 1].category} by {
        assert tools == tools[..|tools| - 1] + [tools[|tools| - 1]];
      }
      r
  }

  /** The sorted category list is determined by its set of names alone:
      two strictly sorted lists with the same elements are equal. */
  lemma {:induction false} SortedUnique(a: seq<string>, b: seq<string>)
    requires StrictlySorted(a) && StrictlySorted(b)
    requires Elems(a) == Elems(b)
    ensures a == b
    decreases |a|
  {
    if |b| > 0 {
      assert b[0] in Elems(b);
    }
    if |a| > 0 {
      assert a[0] in Elems(b);
      assert b[0] in Elems(a);
      var i :| 0 <= i < |b| && b[i] == a[0];
      var j :| 0 <= j < |a| && a[j] == b[0];
      if i > 0 {
        if j > 0 {
          LexLessTransitive(a[0], a[j], b[i]);
          LexLessIrreflexive(a[0]);
        } else {
          LexLessIrreflexive(a[0]);
        }
      }
      assert a[0] == b[0];
      assert Elems(a[1..]) == Elems(b[1..]) by {
        forall k | 0 <= k < |a[1..]| ensures a[1..][k] in Elems(b[1..]) {
          assert a[k + 1] in Elems(b);
          var m :| 0 <= m < |b| && b[m] == a[k + 1];
          if m == 0 { LexLessIrreflexive(a[0]); }
          assert b[1..][m - 1] == b[m];
        }
        forall k | 0 <= k < |b[1..]| ensures b[1..][k] in Elems(a[1..]) {
          assert b[k + 1] in Elems(a);
          var m :| 0 <= m < |a| && a[m] == b[k + 1];
          if m == 0 { LexLessIrreflexive(b[0]); }
          assert a[1..][m - 1] == a[m];
        }
      }
      assert |b| > 0;
      assert StrictlySorted(a[1..]);
      assert StrictlySorted(b[1..]);
      SortedUnique(a[1..], b[1..]);
      assert a == [a[0]] + a[1..];
      assert b == [b[0]] + b[1..];
    }
  }
}

=== FILE: insertion_set.dfy ===
/** A JavaScript `Set` over values: membership plus the order in which the
    elements were first added, which `Array.from` exposes. It is kept as a
    duplicate-free sequence. */
module InsertionSet {
  import Seqs

  /** The elements, forgetting order. */
  function Elems<T>(s: seq<T>): set<T> {
    set i | 0 <= i < |s| :: s[i]
  }

  lemma ElemsConcat<T>(a: seq<T>, b: seq<T>)
    ensures Elems(a + b) == Elems(a) + Elems(b)
  {
    assert forall i | 0 <= i < |a| :: (a + b)[i] == a[i];
    assert forall i | 0 <= i < |b| :: (a + b)[|a| + i] == b[i];
  }

  lemma ElemsCons<T>(x: T, s: seq<T>)
    ensures Elems([x] + s) == {x} + Elems(s)
  {
    ElemsConcat([x], s);
    assert [x][0] == x;
  }

  lemma ElemsMembership<T>(s: seq<T>, x: T)
    ensures x in s <==> x in Elems(s)
  {
    if x in s {
      var i :| 0 <= i < |s| && s[i] == x;
    }
  }

  predicate NoDup<T(==)>(s: seq<T>) {
    forall i, j :: 0 <= i < j < |s| ==> s[i] != s[j]
  }

  /** `Set.prototype.add`: appended at the end unless already present. */
  function Add<T(==)>(s: seq<T>, x: T): (r: seq<T>)
    requires NoDup(s)
    ensures NoDup(r)
    ensures Elems(r) == Elems(s) + {x}
    ensures s <= r
  {
    if x in s then s
    else
      assert Elems(s + [x]) == Elems(s) + {x} by {
        assert (s + [x])[|s|] == x;
        assert forall i | 0 <= i < |s| :: (s + [x])[i] == s[i];
      }
      s + [x]
  }

  /** `Set.prototype.delete`: the other elements keep their order. */
  function Remove<T(==)>(s: seq<T>, x: T): (r: seq<T>)
    requires NoDup(s)
    ensures NoDup(r)
    ensures Elems(r) == Elems(s) - {x}
    ensures Seqs.IsSubseq(r, s)
  {
    Seqs.FilterIsSubseq(s, y => y != x);
    var r := Seqs.Filter(s, y => y != x);
    NoDupSubseq(r, s);
    r
  }

  /** Delete the element when present, add it otherwise. */
  function Toggle<T(==)>(s: seq<T>, x: T): (r: seq<T>)
    requires NoDup(s)
    ensures NoDup(r)
    ensures x in r <==> x !in s
    ensures Elems(r) - {x} == Elems(s) - {x}
  {
    if x in s then Remove(s, x) else Add(s, x)
  }

  /** `xs.forEach(x => set.add(x))`. */
  function AddAll<T(==)>(s: seq<T>, xs: seq<T>): (r: seq<T>)
    requires NoDup(s)
    ensures NoDup(r)
    ensures Elems(r) == Elems(s) + Elems(xs)
    ensures s <= r
    decreases |xs|
  {
    if |xs| == 0 then s
    else
      var r := AddAll(Add(s, xs[0]), xs[1..]);
      assert Elems(xs) == {xs[0]} + Elems(xs[1..]) by {
        assert forall i | 0 < i < |xs| :: xs[i] == xs[1..][i - 1];
      }
      r
  }

  /** `xs.forEach(x => set.delete(x))`. */
  function RemoveAll<T(==)>(s: seq<T>, xs: seq<T>): (r: seq<T>)
    requires NoDup(s)
    ensures NoDup(r)
    ensures Elems(r) == Elems(s) - Elems(xs)
    decreases |xs|
  {
    if |xs| == 0 then s
    else
      var r := RemoveAll(Remove(s, xs[0]), xs[1..]);
      assert Elems(xs) == {xs[0]} + Elems(xs[1..]) by {
        assert forall i | 0 < i < |xs| :: xs[i] == xs[1..][i - 1];
      }
      r
  }

  /** A subsequence of a duplicate-free sequence is duplicate-free and
      holds no new elements. */
  lemma {:induction false} NoDupSubseq<T>(a: seq<T>, b: seq<T>)
    requires Seqs.IsSubseq(a, b)
    requires NoDup(b)
    ensures NoDup(a)
    ensures Elems(a) <= Elems(b)
    decreases |b|
  {
    if |a| > 0 {
      assert NoDup(b[1..]) by {
        forall i, j | 0 <= i < j < |b[1..]| ensures b[1..][i] != b[1..][j] {
          assert b[1..][i] == b[i + 1] && b[1..][j] == b[j + 1];
        }
      }
      assert Elems(b[1..]) <= Elems(b) by {
        forall y | y in Elems(b[1..]) ensures y in Elems(b) {
          var i :| 0 <= i < |b[1..]| && b[1..][i] == y;
          assert b[i + 1] == y;
        }
      }
      if a[0] == b[0] {
        NoDupSubseq(a[1..], b[1..]);
        assert b[0] !in Elems(b[1..]) by {
          forall i | 0 <= i < |b[1..]| ensures b[1..][i] != b[0] {
            assert b[1..][i] == b[i + 1];
          }
        }
        forall i, j | 0 <= i < j < |a| ensures a[i] != a[j] {
          assert a[j] == a[1..][j - 1];
          assert a[j] in Elems(a[1..]);
          if i > 0 { assert a[i] == a[1..][i - 1]; }
        }
        forall y | y in Elems(a) ensures y in Elems(b) {
          var i :| 0 <= i < |a| && a[i] == y;
          if i > 0 { assert a[1..][i - 1] == y; assert y in Elems(a[1..]); }
        }
      } else {
        NoDupSubseq(a, b[1..]);
      }
    }
  }
}

=== FILE: login.dfy ===
/** The login and self-registration decisions of the login screen. The
    profile lookup and the waiting-list queries go to the store; their
    failure is an explicit parameter. */
module Login {
  import opened Wrappers
  import opened Types
  import opened Store
  import Seqs

  const BadCredentialsMessage := "Usuário ou senha incorretos."
  const DisabledMessage := "Sua conta está desativada. Fale com o administrador."
  const MismatchMessage := "As senhas não coincidem."
  const EmailTakenMessage := "Este email já está cadastrado."
  const EmailPendingMessage := "Este email já está na lista de espera."
  const RegisterFailedMessage := "Ocorreu um erro no cadastro."

  /** A query ending in `.single()`: the row when exactly one matches;
      nothing when the query fails or matches zero or several rows. */
  function Single<T>(rows: seq<T>, queryOk: bool): (r: Option<T>)
    ensures r.Some? <==> queryOk && |rows| == 1
    ensures r.Some? ==> r.value in rows
  {
    if queryOk && |rows| == 1 then Some(rows[0]) else None
  }

  // ---------------------------------------------------------------------
  // Login

  /** Exactly one of: an error message, the admin callback, the user callback. */
  datatype LoginOutcome =
    | LoginFailed(message: string)
    | AdminLoggedIn
    | UserLoggedIn(user: User)

  function CredentialMatches(db: Db, email: string, password: string): seq<Profile> {
    Seqs.Filter(db.profiles, (p: Profile) => p.email == email && p.senha == password)
  }

  /** The profile whose email and password both match, when the query
      succeeds and finds exactly one. */
  function LookupProfile(db: Db, email: string, password: string, queryOk: bool): (r: Option<Profile>)
    ensures r.Some? ==> r.value in db.profiles && r.value.email == email && r.value.senha == password
    ensures r.Some? <==> queryOk && |CredentialMatches(db, email, password)| == 1
  {
    Single(CredentialMatches(db, email, password), queryOk)
  }

  /** The ordered checks on the looked-up row: missing row, then inactive
      account, then admin versus ordinary user. */
  function DecideLogin(row: Option<Profile>): (r: LoginOutcome)
    ensures row.None? ==> r == LoginFailed(BadCredentialsMessage)
    ensures row.Some? && !row.value.isActive ==> r == LoginFailed(DisabledMessage)
    ensures r.AdminLoggedIn? <==> row.Some? && row.value.isActive && row.value.isAdmin
    ensures r.UserLoggedIn? <==> row.Some? && row.value.isActive && !row.value.isAdmin
    ensures r.UserLoggedIn? ==> r.user == User(row.value.id, row.value.nome)
  {
    if row.None? then LoginFailed(BadCredentialsMessage)
    else if !row.value.isActive then LoginFailed(DisabledMessage)
    else if row.value.isAdmin then AdminLoggedIn
    else UserLoggedIn(User(row.value.id, row.value.nome))
  }

  /** Submitting the login form. */
  function HandleLogin(db: Db, email: string, password: string, queryOk: bool): LoginOutcome {
    DecideLogin(LookupProfile(db, email, password, queryOk))
  }

  /** Login fails closed: any success means the lookup succeeded, exactly one
      stored profile has these credentials, and that profile is active; its
      admin flag alone picks which callback runs. */
  lemma LoginSuccessIsJustified(db: Db, email: string, password: string, queryOk: bool)
    ensures !HandleLogin(db, email, password, queryOk).LoginFailed? ==>
      queryOk &&
      var m := CredentialMatches(db, email, password);
      |m| == 1 && m[0] in db.profiles && m[0].isActive &&
      (HandleLogin(db, email, password, queryOk).AdminLoggedIn? <==> m[0].isAdmin) &&
      (HandleLogin(db, email, password, queryOk).UserLoggedIn? ==>
         HandleLogin(db, email, password, queryOk).user == User(m[0].id, m[0].nome))
  {
  }

  /** The active-account check comes before the admin check, so a disabled
      administrator is turned away with the disabled-account message. */
  lemma InactiveAdminRejected(db: Db, email: string, password: string, p: Profile)
    requires CredentialMatches(db, email, password) == [p]
    requires p.isAdmin && !p.isActive
    ensures HandleLogin(db, email, password, true) == LoginFailed(DisabledMessage)
  {
  }

  // ---------------------------------------------------------------------
  // Registration

  datatype RegisterForm = RegisterForm(
    nome: string,
    email: string,
    telefone: string,
    password: string,
    confirmPassword: string)

  datatype RegisterOutcome =
    | PasswordMismatch
    | EmailRegistered
    | EmailPending
    | RegisterFailed
    | Registered

  /** Whether each of the three store calls succeeds, and the id the store
      gives the new waiting-list entry. */
  datatype RegisterOracle = RegisterOracle(
    profileQueryOk: bool,
    waitingQueryOk: bool,
    insertOk: bool,
    newEntryId: int)

  function ProfilesWithEmail(db: Db, email: string): seq<Profile> {
    Seqs.Filter(db.profiles, (p: Profile) => p.email == email)
  }

  function PendingWithEmail(db: Db, email: string): seq<WaitingUser> {
    Seqs.Filter(db.waiting, (w: WaitingUser) => w.email == email && w.status == Pendente)
  }

  /** The waiting-list entry a successful registration adds; its status is
      the table's default, `pendente`. */
  function NewEntry(form: RegisterForm, id: int): WaitingUser {
    WaitingUser(id, form.nome, form.email, form.telefone, form.password, Pendente)
  }

  /** Submitting the registration form. The two duplicate checks ignore
      their query errors: a failed query, or one matching several rows,
      reads as "not found". */
  function HandleRegister(db: Db, form: RegisterForm, o: RegisterOracle): (e: Effect<RegisterOutcome>)
    ensures e.outcome == PasswordMismatch <==> form.password != form.confirmPassword
    ensures e.outcome == PasswordMismatch ==> e.calls == []
    ensures e.outcome == EmailRegistered <==>
      form.password == form.confirmPassword &&
      Single(ProfilesWithEmail(db, form.email), o.profileQueryOk).Some?
    ensures e.outcome == EmailPending <==>
      form.password == form.confirmPassword &&
      Single(ProfilesWithEmail(db, form.email), o.profileQueryOk).None? &&
      Single(PendingWithEmail(db, form.email), o.waitingQueryOk).Some?
    ensures e.outcome.Registered? <==> InsertWaiting(o.newEntryId) in e.calls && o.insertOk
    ensures e.outcome.Registered? ==> e.db == db.(waiting := db.waiting + [NewEntry(form, o.newEntryId)])
    ensures !e.outcome.Registered? ==> e.db == db
    ensures InsertWaiting(o.newEntryId) in e.calls <==>
      form.password == form.confirmPassword &&
      Single(ProfilesWithEmail(db, form.email), o.profileQueryOk).None? &&
      Single(PendingWithEmail(db, form.email), o.waitingQueryOk).None?
    ensures e.outcome == EmailRegistered ==> |ProfilesWithEmail(db, form.email)| == 1
    ensures e.outcome == EmailPending ==>
      |ProfilesWithEmail(db, form.email)| != 1 || !o.profileQueryOk
  {
    if form.password != form.confirmPassword then
      Effect(PasswordMismatch, db, [])
    else if Single(ProfilesWithEmail(db, form.email), o.profileQueryOk).Some? then
      Effect(EmailRegistered, db, [SelectProfiles])
    else if Single(PendingWithEmail(db, form.email), o.waitingQueryOk).Some? then
      Effect(EmailPending, db, [SelectProfiles, SelectWaiting])
    else
      var calls := [SelectProfiles, SelectWaiting, InsertWaiting(o.newEntryId)];
      if o.insertOk then
        Effect(Registered, db.(waiting := db.waiting + [NewEntry(form, o.newEntryId)]), calls)
      else
        Effect(RegisterFailed, db, calls)
  }

  /** The duplicate check as written relies on `.single()`: an email that
      already belongs to two profiles is not recognised as taken, and the
      registration goes on to insert a waiting-list entry. */
  lemma DuplicateProfilesSlipThrough(db: Db, form: RegisterForm, o: RegisterOracle)
    requires form.password == form.confirmPassword
    requires |ProfilesWithEmail(db, form.email)| == 2
    requires |PendingWithEmail(db, form.email)| == 0
    ensures InsertWaiting(o.newEntryId) in HandleRegister(db, form, o).calls
  {
  }
}

=== FILE: onboarding.dfy ===
/** The first-login page where a user picks the categories of their
    dashboard. Every category of the catalogue is listed in sorted order
    (`Catalog.SortedCategories`); only categories of granted tools can be
    clicked, and a click toggles the category in a selection that keeps
    the order of first selection. */
module Onboarding {
  import opened Wrappers
  import opened Types
  import opened InsertionSet
  import Catalog

  /** The categories the user holds at least one granted tool in. */
  function PermittedCategories(permitted: seq<Tool>): set<string> {
    Catalog.CategoryNames(permitted)
  }

  /** A click on a category button: a category without access is
      disabled and the click changes nothing; otherwise the category is
      toggled. */
  function Click(selection: seq<string>, category: string, permitted: seq<Tool>): (r: seq<string>)
    requires NoDup(selection)
    ensures NoDup(r)
    ensures category !in PermittedCategories(permitted) ==> r == selection
    ensures category in PermittedCategories(permitted) ==>
      (category in r <==> category !in selection) &&
      Elems(r) - {category} == Elems(selection) - {category}
  {
    if category in PermittedCategories(permitted) then Toggle(selection, category) else selection
  }

  /** The selection after a series of clicks. */
  function ClickAll(selection: seq<string>, clicks: seq<string>, permitted: seq<Tool>): (r: seq<string>)
    requires NoDup(selection)
    ensures NoDup(r)
    decreases |clicks|
  {
    if |clicks| == 0 then selection
    else ClickAll(Click(selection, clicks[0], permitted), clicks[1..], permitted)
  }

  /** Whatever buttons are clicked, the selection only ever holds listed
      categories the user has access to. */
  lemma {:induction false} SelectionStaysPermitted(
    allTools: seq<Tool>, permitted: seq<Tool>, selection: seq<string>, clicks: seq<string>)
    requires NoDup(selection)
    requires Elems(selection) <= PermittedCategories(permitted) * Catalog.CategoryNames(allTools)
    requires forall i :: 0 <= i < |clicks| ==> clicks[i] in Catalog.SortedCategories(allTools)
    ensures Elems(ClickAll(selection, clicks, permitted)) <= PermittedCategories(permitted) * Catalog.CategoryNames(allTools)
    decreases |clicks|
  {
    if |clicks| > 0 {
      var c := clicks[0];
      ElemsMembership(Catalog.SortedCategories(allTools), c);
      var next := Click(selection, c, permitted);
      assert Elems(next) <= Elems(selection) + {c};
      if c !in PermittedCategories(permitted) {
        assert next == selection;
      }
      assert forall i :: 0 <= i < |clicks[1..]| ==> clicks[1..][i] == clicks[i + 1];
      SelectionStaysPermitted(allTools, permitted, next, clicks[1..]);
    }
  }

  /** Clicking the same category twice restores the set of selected
      categories. */
  lemma ClickTwice(selection: seq<string>, category: string, permitted: seq<Tool>)
    requires NoDup(selection)
    ensures Elems(Click(Click(selection, category, permitted), category, permitted)) == Elems(selection)
  {
    var once := Click(selection, category, permitted);
    var twice := Click(once, category, permitted);
    ElemsMembership(selection, category);
    ElemsMembership(twice, category);
  }

  const EmptySelectionAlert := "Por favor, selecione pelo menos uma categoria para montar sua ToolBox."

  datatype SubmitOutcome = Alert(message: string) | Complete(categories: seq<string>)

  /** The continue button: an empty selection only raises an alert; a
      non-empty one is handed on as a list in order of first selection. */
  function Submit(selection: seq<string>): (r: SubmitOutcome)
    requires NoDup(selection)
    ensures r.Complete? <==> |selection| > 0
    ensures r.Alert? ==> r.message == EmptySelectionAlert
    ensures r.Complete? ==> NoDup(r.categories) && Elems(r.categories) == Elems(selection)
  {
    if |selection| > 0 then Complete(selection) else Alert(EmptySelectionAlert)
  }
}

=== FILE: seqs.dfy ===
/** Sequence and string helpers with the semantics of the JavaScript
    built-ins the application uses: `Array.prototype.filter`,
    `String.prototype.includes` and `String.prototype.split`. */
module Seqs {
  import opened Wrappers

  /** `Array.prototype.filter`: the elements of `s` satisfying `p`, in order. */
  function Filter<T(==)>(s: seq<T>, p: T -> bool): (r: seq<T>)
    ensures |r| <= |s|
    ensures forall i :: 0 <= i < |r| ==> r[i] in s && p(r[i])
    ensures forall i :: 0 <= i < |s| ==> (s[i] in r <==> p(s[i]))
    decreases |s|
  {
    if |s| == 0 then []
    else (if p(s[0]) then [s[0]] else []) + Filter(s[1..], p)
  }

  /** `a` can be obtained from `b` by deleting elements (order kept). */
  predicate IsSubseq<T(==)>(a: seq<T>, b: seq<T>)
    decreases |b|
  {
    if |a| == 0 then true
    else if |b| == 0 then false
    else if a[0] == b[0] then IsSubseq(a[1..], b[1..])
    else IsSubseq(a, b[1..])
  }

  /** A filter keeps the input order: its result is a subsequence. */
  lemma {:induction false} FilterIsSubseq<T>(s: seq<T>, p: T -> bool)
    ensures IsSubseq(Filter(s, p), s)
    decreases |s|
  {
    if |s| > 0 {
      FilterIsSubseq(s[1..], p);
      var rest := Filter(s[1..], p);
      if p(s[0]) {
        assert Filter(s, p) == [s[0]] + rest;
        assert ([s[0]] + rest)[1..] == rest;
      } else {
        assert Filter(s, p) == rest;
      }
    }
  }

  /** A filter drops nothing exactly when every element passes. */
  lemma {:induction false} FilterKeepsAll<T>(s: seq<T>, p: T -> bool)
    ensures Filter(s, p) == s <==> forall i :: 0 <= i < |s| ==> p(s[i])
    decreases |s|
  {
    if |s| > 0 {
      FilterKeepsAll(s[1..], p);
      if Filter(s, p) == s {
        assert s[0] in Filter(s, p);
        assert Filter(s[1..], p) == s[1..];
        forall i | 0 <= i < |s| ensures p(s[i]) {
          if i > 0 { assert s[i] == s[1..][i - 1]; }
        }
      }
      if forall i :: 0 <= i < |s| ==> p(s[i]) {
        assert forall i :: 0 <= i < |s[1..]| ==> p(s[1..][i]) by {
          forall i | 0 <= i < |s[1..]| ensures p(s[1..][i]) {
            assert s[1..][i] == s[i + 1];
          }
        }
        assert p(s[0]);
      }
    }
  }

  /** A filter keeps its full length only when it keeps everything. */
  lemma {:induction false} FilterFullLength<T>(s: seq<T>, p: T -> bool)
    ensures |Filter(s, p)| == |s| <==> forall i :: 0 <= i < |s| ==> p(s[i])
    decreases |s|
  {
    FilterKeepsAll(s, p);
    if |s| > 0 {
      FilterFullLength(s[1..], p);
      if |Filter(s, p)| == |s| && p(s[0]) {
        forall i | 0 <= i < |s| ensures p(s[i]) {
          if i > 0 { assert s[i] == s[1..][i - 1]; }
        }
      }
    }
  }

  /** A filter that no element passes is empty. */
  lemma {:induction false} FilterNone<T>(s: seq<T>, p: T -> bool)
    requires forall i :: 0 <= i < |s| ==> !p(s[i])
    ensures Filter(s, p) == []
    decreases |s|
  {
    if |s| > 0 {
      assert forall i :: 0 <= i < |s[1..]| ==> s[1..][i] == s[i + 1];
      FilterNone(s[1..], p);
    }
  }

  /** The first element a filter keeps is the first element of the input
      that passes it. */
  lemma {:induction false} FilterFirst<T>(s: seq<T>, p: T -> bool)
    requires |Filter(s, p)| > 0
    ensures exists i :: 0 <= i < |s| && Filter(s, p)[0] == s[i] && p(s[i]) &&
                        forall j :: 0 <= j < i ==> !p(s[j])
    decreases |s|
  {
    if !p(s[0]) {
      assert Filter(s, p) == Filter(s[1..], p);
      FilterFirst(s[1..], p);
      var k :| 0 <= k < |s[1..]| && Filter(s[1..], p)[0] == s[1..][k] && p(s[1..][k]) &&
               forall j :: 0 <= j < k ==> !p(s[1..][j]);
      assert forall j :: 1 <= j < k + 1 ==> s[j] == s[1..][j - 1];
      assert Filter(s, p)[0] == s[k + 1];
    } else {
      assert Filter(s, p)[0] == s[0];
    }
  }

  /** Filtering distributes over concatenation. */
  lemma {:induction false} FilterAppend<T>(a: seq<T>, b: seq<T>, p: T -> bool)
    ensures Filter(a + b, p) == Filter(a, p) + Filter(b, p)
    decreases |a|
  {
    if |a| == 0 {
      assert a + b == b;
    } else {
      assert (a + b)[1..] == a[1..] + b;
      FilterAppend(a[1..], b, p);
    }
  }

  // ---------------------------------------------------------------------
  // Strings

  /** `needle` occurs in `hay` starting at position `i`. */
  predicate OccursAt(hay: string, needle: string, i: int) {
    0 <= i && i + |needle| <= |hay| && hay[i..i + |needle|] == needle
  }

  /** `String.prototype.includes`: `needle` is a substring of `hay`. */
  predicate Contains(hay: string, needle: string) {
    exists i | 0 <= i <= |hay| - |needle| :: OccursAt(hay, needle, i)
  }

  /** `String.prototype.indexOf` from position `k` on: the first position
      at or after `k` where `sep` occurs. */
  function IndexFrom(s: string, sep: string, k: nat): (r: Option<nat>)
    requires |sep| > 0
    ensures r.Some? ==> k <= r.value && OccursAt(s, sep, r.value)
    ensures r.Some? ==> forall j :: k <= j < r.value ==> !OccursAt(s, sep, j)
    ensures r.None? ==> forall j :: k <= j ==> !OccursAt(s, sep, j)
    decreases |s| - k
  {
    if k + |sep| > |s| then None
    else if s[k..k + |sep|] == sep then Some(k)
    else IndexFrom(s, sep, k + 1)
  }

  /** The first occurrence of `sep` in `s`, if any. */
  function IndexOf(s: string, sep: string): (r: Option<nat>)
    requires |sep| > 0
    ensures r.Some? ==> OccursAt(s, sep, r.value)
    ensures r.Some? ==> forall j :: 0 <= j < r.value ==> !OccursAt(s, sep, j)
    ensures r.None? ==> forall j :: !OccursAt(s, sep, j)
  {
    IndexFrom(s, sep, 0)
  }

  /** `indexOf` finds a position exactly when `includes` holds. */
  lemma IndexOfFinds(s: string, sep: string)
    requires |sep| > 0
    ensures IndexOf(s, sep).Some? <==> Contains(s, sep)
  {
  }

  /** The inverse of `Split`: the pieces glued back with `sep`. */
  function Join(pieces: seq<string>, sep: string): string
    requires |pieces| > 0
    decreases |pieces|
  {
    if |pieces| == 1 then pieces[0]
    else pieces[0] + sep + Join(pieces[1..], sep)
  }

  /** The pieces of `s[k..]` between successive leftmost occurrences of
      `sep`. Positions stay positions in `s`, which keeps the proofs about
      it small. */
  function SplitFrom(s: string, sep: string, k: nat): (r: seq<string>)
    requires |sep| > 0 && k <= |s|
    ensures |r| > 0
    decreases |s| - k
  {
    match IndexFrom(s, sep, k)
    case None => [s[k..]]
    case Some(p) => [s[k..p]] + SplitFrom(s, sep, p + |sep|)
  }

  /** `String.prototype.split` with a non-empty string separator. */
  function Split(s: string, sep: string): (r: seq<string>)
    requires |sep| > 0
    ensures |r| > 0
  {
    SplitFrom(s, sep, 0)
  }

  /** Joining the pieces gives back the text they were cut from. */
  lemma {:induction false} SplitFromJoin(s: string, sep: string, k: nat)
    requires |sep| > 0 && k <= |s|
    ensures Join(SplitFrom(s, sep, k), sep) == s[k..]
    decreases |s| - k
  {
    match IndexFrom(s, sep, k)
    case None =>
    case Some(p) =>
      var r := SplitFrom(s, sep, k);
      var q := p + |sep|;
      SplitFromJoin(s, sep, q);
      assert r[1..] == SplitFrom(s, sep, q);
      assert s[k..] == s[k..p] + sep + s[q..];
  }

  /** Joining the pieces of a split gives back the text. */
  lemma SplitJoin(s: string, sep: string)
    requires |sep| > 0
    ensures Join(Split(s, sep), sep) == s
  {
    SplitFromJoin(s, sep, 0);
    assert s[0..] == s;
  }

  /** No piece contains the separator. */
  lemma {:induction false} SplitFromPiecesFree(s: string, sep: string, k: nat)
    requires |sep| > 0 && k <= |s|
    ensures forall i :: 0 <= i < |SplitFrom(s, sep, k)| ==> !Contains(SplitFrom(s, sep, k)[i], sep)
    decreases |s| - k
  {
    var r := SplitFrom(s, sep, k);
    match IndexFrom(s, sep, k)
    case None =>
      NotContainedFrom(s, sep, k, |s|);
      assert s[k..|s|] == s[k..];
    case Some(p) =>
      var q := p + |sep|;
      SplitFromPiecesFree(s, sep, q);
      NotContainedFrom(s, sep, k, p);
      assert r[1..] == SplitFrom(s, sep, q);
  }

  /** A stretch of text with no occurrence starting inside it (and ending
      inside it) does not contain the separator. */
  lemma NotContainedFrom(s: string, sep: string, k: nat, e: nat)
    requires |sep| > 0 && k <= e <= |s|
    requires forall j :: k <= j < e ==> !OccursAt(s, sep, j)
    ensures !Contains(s[k..e], sep)
  {
    forall j | OccursAt(s[k..e], sep, j) ensures false {
      assert 0 <= j && k + j + |sep| <= e;
      var piece := s[k..e][j..j + |sep|];
      assert |piece| == |sep|;
      assert forall t :: 0 <= t < |sep| ==> piece[t] == s[k + j + t];
      assert piece == s[k + j..k + j + |sep|];
      assert OccursAt(s, sep, k + j);
    }
  }

  /** No piece of a split contains the separator. */
  lemma SplitPiecesFree(s: string, sep: string)
    requires |sep| > 0
    ensures forall i :: 0 <= i < |Split(s, sep)| ==> !Contains(Split(s, sep)[i], sep)
  {
    SplitFromPiecesFree(s, sep, 0);
  }

  /** A split has a single piece exactly when the separator does not occur. */
  lemma SplitSingle(s: string, sep: string)
    requires |sep| > 0
    ensures |Split(s, sep)| == 1 <==> !Contains(s, sep)
  {
    IndexOfFinds(s, sep);
  }

  /** The first piece from `k` runs up to the next separator or the end
      of the text, and there is a further piece exactly when a separator
      follows. */
  lemma FirstPieceFrom(s: string, sep: string, k: nat)
    requires |sep| > 0 && k <= |s|
    ensures var r := SplitFrom(s, sep, k);
      && k + |r[0]| <= |s|
      && s[k..k + |r[0]|] == r[0]
      && (|r| > 1 <==> IndexFrom(s, sep, k).Some?)
      && (|r| > 1 ==> IndexFrom(s, sep, k) == Some(k + |r[0]|))
      && (|r| == 1 ==> k + |r[0]| == |s|)
  {
  }

  /** The first piece from `k` is empty exactly when the text ends at `k`
      or the separator occurs there. */
  lemma FirstPieceEmpty(s: string, sep: string, k: nat)
    requires |sep| > 0 && k <= |s|
    ensures SplitFrom(s, sep, k)[0] == "" <==> k == |s| || OccursAt(s, sep, k)
  {
    FirstPieceFrom(s, sep, k);
  }

  /** The second piece of a split is the first piece of what follows the
      first separator. */
  lemma SplitSecond(s: string, sep: string)
    requires |sep| > 0
    requires |Split(s, sep)| > 1
    ensures IndexOf(s, sep).Some?
    ensures IndexOf(s, sep).value + |sep| <= |s|
    ensures Split(s, sep)[1] == SplitFrom(s, sep, IndexOf(s, sep).value + |sep|)[0]
  {
  }

  /** The last element of a non-empty sequence (`Array.prototype.pop`'s result). */
  function Last<T>(s: seq<T>): T
    requires |s| > 0
  {
    s[|s| - 1]
  }

  /** The last piece is a suffix of the text. */
  lemma {:induction false} LastPieceSuffixFrom(s: string, sep: string, k: nat)
    requires |sep| > 0 && k <= |s|
    ensures var piece := Last(SplitFrom(s, sep, k));
      |piece| <= |s| - k && s[|s| - |piece|..] == piece
    decreases |s| - k
  {
    match IndexFrom(s, sep, k)
    case None =>
    case Some(p) =>
      var q := p + |sep|;
      LastPieceSuffixFrom(s, sep, q);
      assert Last(SplitFrom(s, sep, k)) == Last(SplitFrom(s, sep, q));
  }

  /** The last piece holds no separator. */
  lemma {:induction false} LastPieceFreeFrom(s: string, sep: string, k: nat)
    requires |sep| > 0 && k <= |s|
    ensures !Contains(Last(SplitFrom(s, sep, k)), sep)
    decreases |s| - k
  {
    match IndexFrom(s, sep, k)
    case None =>
      NotContainedFrom(s, sep, k, |s|);
      assert s[k..|s|] == s[k..];
    case Some(p) =>
      var q := p + |sep|;
      LastPieceFreeFrom(s, sep, q);
      assert Last(SplitFrom(s, sep, k)) == Last(SplitFrom(s, sep, q));
  }

  /** The last piece starts at `k` or right after an occurrence of the
      separator. */
  lemma {:induction false} LastPieceStartFrom(s: string, sep: string, k: nat)
    requires |sep| > 0 && k <= |s|
    ensures var piece := Last(SplitFrom(s, sep, k));
      |piece| == |s| - k || (|piece| + |sep| <= |s| && OccursAt(s, sep, |s| - |piece| - |sep|))
    decreases |s| - k
  {
    match IndexFrom(s, sep, k)
    case None =>
    case Some(p) =>
      var q := p + |sep|;
      LastPieceStartFrom(s, sep, q);
      var piece := Last(SplitFrom(s, sep, q));
      assert Last(SplitFrom(s, sep, k)) == piece;
      if |piece| == |s| - q {
        assert |s| - |piece| - |sep| == p;
      }
  }

  /** The last piece of a split is the text after the last separator. */
  lemma SplitLastPiece(s: string, sep: string)
    requires |sep| > 0
    ensures var piece := Last(Split(s, sep));
      && |piece| <= |s|
      && s[|s| - |piece|..] == piece
      && !Contains(piece, sep)
      && (|piece| == |s| || (|piece| + |sep| <= |s| && OccursAt(s, sep, |s| - |piece| - |sep|)))
  {
    LastPieceSuffixFrom(s, sep, 0);
    LastPieceFreeFrom(s, sep, 0);
    LastPieceStartFrom(s, sep, 0);
  }
}

=== FILE: session.dfy ===
/** The application shell's session state machine: the current view, the
    signed-in user or administrator, the tool lists, and the one session
    snapshot kept in the browser's local storage so that a reload resumes
    where the user was. Remote results (the tool catalogue, a user's
    grants) arrive as explicit parameters, `None` meaning the call failed. */
module Session {
  import opened Wrappers
  import opened Types
  import Seqs
  import Login
  import Store

  datatype View = LoginView | OnboardingView | ToolboxView | AdminView

  /** The parsed session snapshot. Every field may be missing from the
      stored JSON; `view` is kept as the raw string, unvalidated. */
  datatype Snapshot = Snapshot(
    isAdmin: bool,
    view: Option<string>,
    user: Option<User>,
    permittedTools: Option<seq<Tool>>,
    userCategories: Option<seq<string>>)

  /** The local-storage slot holding the snapshot: nothing stored, stored
      text that is not JSON at all, JSON whose value is not an object
      (`null`, a number, a string, a boolean), or a parsed snapshot. */
  datatype Slot = Absent | Unreadable | NotAnObject | Present(snap: Snapshot)

  datatype AppState = AppState(
    view: View,
    user: Option<User>,
    adminUser: Option<User>,
    allTools: seq<Tool>,
    permittedTools: seq<Tool>,
    activeTools: seq<Tool>,
    userCategories: seq<string>,
    slot: Slot)

  const NoSnapshot := Snapshot(false, None, None, None, None)

  /** JavaScript truthiness of an optional string. */
  predicate Truthy(s: Option<string>) {
    s.Some? && s.value != ""
  }

  /** The state the shell mounts with. */
  function Initial(slot: Slot): AppState {
    AppState(LoginView, None, None, [], [], [], [], slot)
  }

  /** The permitted tools whose category is among the selected ones. */
  function ToolsForCategories(permitted: seq<Tool>, categories: seq<string>): (r: seq<Tool>)
    ensures forall i :: 0 <= i < |r| ==> r[i] in permitted && r[i].category in categories
    ensures forall t :: t in permitted && t.category in categories ==> t in r
    ensures Seqs.IsSubseq(r, permitted)
  {
    Seqs.FilterIsSubseq(permitted, (t: Tool) => t.category in categories);
    Seqs.Filter(permitted, (t: Tool) => t.category in categories)
  }

  /** Nothing is active while no category is selected. */
  lemma NoCategoriesNoTools(permitted: seq<Tool>)
    ensures ToolsForCategories(permitted, []) == []
  {
  }

  /** Loading the catalogue catches its own errors: on failure the old
      catalogue stays and the caller carries on. */
  function FetchCatalog(st: AppState, catalog: Option<seq<Tool>>): (r: AppState)
    ensures catalog.Some? ==> r == st.(allTools := catalog.value)
    ensures catalog.None? ==> r == st
  {
    if catalog.Some? then st.(allTools := catalog.value) else st
  }

  /** Session restore at boot. */
  function Restore(slot: Slot, catalog: Option<seq<Tool>>): (r: AppState)
    // no snapshot: stay on the login view
    ensures slot.Absent? ==> r == Initial(Absent)
    // text that is not JSON: the parse throws before the catalogue is
    // fetched; the entry is removed and the login view stays
    ensures slot.Unreadable? ==> r == Initial(Absent)
    // JSON that is not an object: the catalogue is fetched, then reading
    // the fields fails or finds nothing, and the entry is removed
    ensures slot.NotAnObject? ==>
      r.view == LoginView && r.slot == Absent && r.user.None? && r.adminUser.None? &&
      r.permittedTools == [] && r.activeTools == [] && r.userCategories == [] &&
      r.allTools == (if catalog.Some? then catalog.value else [])
    // an admin snapshot resumes the admin view whatever else it holds
    ensures slot.Present? && slot.snap.isAdmin && slot.snap.view == Some("admin") ==>
      r.view == AdminView && r.adminUser == slot.snap.user && r.slot == slot &&
      r.user.None? && r.permittedTools == [] && r.activeTools == [] && r.userCategories == []
    // a snapshot lacking a user or a view is removed
    ensures slot.Present? && !(slot.snap.isAdmin && slot.snap.view == Some("admin")) &&
            (slot.snap.user.None? || !Truthy(slot.snap.view)) ==>
      r.view == LoginView && r.slot == Absent && r.user.None? && r.adminUser.None? &&
      r.permittedTools == [] && r.activeTools == [] && r.userCategories == []
    // a user with view 'toolbox' resumes the toolbox, lists defaulting to empty
    ensures slot.Present? && slot.snap.user.Some? && slot.snap.view == Some("toolbox") ==>
      r.view == ToolboxView && r.user == slot.snap.user && r.slot == slot &&
      r.permittedTools == slot.snap.permittedTools.GetOr([]) &&
      r.userCategories == slot.snap.userCategories.GetOr([]) &&
      r.activeTools == ToolsForCategories(r.permittedTools, r.userCategories)
    // a user with any other non-empty view string resumes onboarding
    ensures slot.Present? && slot.snap.user.Some? && Truthy(slot.snap.view) &&
            slot.snap.view != Some("toolbox") && !(slot.snap.isAdmin && slot.snap.view == Some("admin")) ==>
      r.view == OnboardingView && r.user == slot.snap.user && r.slot == slot &&
      r.permittedTools == slot.snap.permittedTools.GetOr([]) &&
      r.activeTools == [] && r.userCategories == []
    // the catalogue is refreshed whenever a snapshot was read
    ensures slot.Present? && catalog.Some? ==> r.allTools == catalog.value
    ensures slot.Present? && catalog.None? ==> r.allTools == []
  {
    match slot
    case Absent => Initial(Absent)
    case Unreadable => Initial(Absent)
    case NotAnObject => FetchCatalog(Initial(Absent), catalog)
    case Present(snap) =>
      var st := FetchCatalog(Initial(slot), catalog);
      if snap.isAdmin && snap.view == Some("admin") then
        st.(adminUser := snap.user, view := AdminView)
      else if snap.user.Some? && Truthy(snap.view) then
        var permitted := snap.permittedTools.GetOr([]);
        if snap.view == Some("toolbox") then
          var cats := snap.userCategories.GetOr([]);
          st.(user := snap.user, permittedTools := permitted, userCategories := cats,
              activeTools := ToolsForCategories(permitted, cats), view := ToolboxView)
        else
          st.(user := snap.user, permittedTools := permitted, view := OnboardingView)
      else
        st.(slot := Absent)
  }

  /** The granted tools a user may see: rows whose joined tool exists and is
      `ativo`. */
  function ActiveGrantedTools(rows: seq<Option<Tool>>): (r: seq<Tool>)
    ensures forall i :: 0 <= i < |r| ==> r[i].status == Ativo && Some(r[i]) in rows
    ensures forall i :: 0 <= i < |rows| && rows[i].Some? && rows[i].value.status == Ativo ==>
      rows[i].value in r
    decreases |rows|
  {
    if |rows| == 0 then []
    else
      var rest := ActiveGrantedTools(rows[1..]);
      assert forall i :: 1 <= i < |rows| ==> rows[i] == rows[1..][i - 1];
      if rows[0].Some? && rows[0].value.status == Ativo then [rows[0].value] + rest else rest
  }

  /** Logout: local storage cleared, every user-related field reset. */
  function Logout(st: AppState): (r: AppState)
    ensures r.view == LoginView && r.slot == Absent
    ensures r.user.None? && r.adminUser.None?
    ensures r.activeTools == [] && r.permittedTools == [] && r.userCategories == []
    ensures r.allTools == st.allTools
  {
    st.(slot := Absent, user := None, adminUser := None, activeTools := [],
        permittedTools := [], userCategories := [], view := LoginView)
  }

  /** A user's credentials were accepted. The catalogue fetch cannot abort
      the transition; a failed grants query (`None`) logs out instead. */
  function LoginSuccess(st: AppState, u: User, catalog: Option<seq<Tool>>, grantRows: Option<seq<Option<Tool>>>): (r: AppState)
    ensures grantRows.None? ==> r == Logout(FetchCatalog(st, catalog))
    ensures grantRows.Some? ==>
      var tools := ActiveGrantedTools(grantRows.value);
      r.view == OnboardingView && r.user == Some(u) &&
      r.permittedTools == tools &&
      r.slot == Present(Snapshot(false, Some("onboarding"), Some(u), Some(tools), None)) &&
      r.activeTools == st.activeTools && r.userCategories == st.userCategories &&
      r.adminUser == st.adminUser
    // the catalogue is refreshed when its fetch succeeds and kept otherwise
    ensures r.allTools == (if catalog.Some? then catalog.value else st.allTools)
  {
    var st1 := FetchCatalog(st.(user := Some(u)), catalog);
    match grantRows
    case None => Logout(st1)
    case Some(rows) =>
      var tools := ActiveGrantedTools(rows);
      st1.(permittedTools := tools,
           slot := Present(Snapshot(false, Some("onboarding"), Some(u), Some(tools), None)),
           view := OnboardingView)
  }

  /** An administrator's credentials were accepted. */
  function AdminLoginSuccess(st: AppState, admin: Option<User>, catalog: Option<seq<Tool>>): (r: AppState)
    ensures r.view == AdminView && r.adminUser == admin
    ensures r.slot == Present(Snapshot(true, Some("admin"), admin, None, None))
    ensures r.user == st.user && r.permittedTools == st.permittedTools
    ensures r.activeTools == st.activeTools && r.userCategories == st.userCategories
    ensures r.allTools == (if catalog.Some? then catalog.value else st.allTools)
  {
    FetchCatalog(st, catalog).(adminUser := admin,
      slot := Present(Snapshot(true, Some("admin"), admin, None, None)), view := AdminView)
  }

  /** Onboarding confirmed with the selected categories. */
  function OnboardingComplete(st: AppState, selected: seq<string>): (r: AppState)
    ensures r.view == ToolboxView && r.user == st.user
    ensures r.permittedTools == st.permittedTools && r.userCategories == selected
    ensures forall t :: t in r.activeTools <==> t in st.permittedTools && t.category in selected
    ensures r.activeTools == ToolsForCategories(st.permittedTools, selected)
    ensures r.allTools == st.allTools && r.adminUser == st.adminUser
    ensures r.slot == Present(Snapshot(false, Some("toolbox"), st.user, Some(st.permittedTools), Some(selected)))
  {
    st.(activeTools := ToolsForCategories(st.permittedTools, selected),
        userCategories := selected,
        slot := Present(Snapshot(false, Some("toolbox"), st.user, Some(st.permittedTools), Some(selected))),
        view := ToolboxView)
  }

  /** Back from the dashboard to onboarding: the stored snapshot (or `{}`)
      gets `view` overwritten, everything else kept. Unreadable storage
      makes the parse throw, and a stored non-object makes the write of
      `view` throw (module code is strict), before anything changes. */
  function BackToOnboarding(st: AppState): (r: AppState)
    ensures st.slot.Unreadable? || st.slot.NotAnObject? ==> r == st
    ensures st.slot.Present? ==>
      r == st.(slot := Present(st.slot.snap.(view := Some("onboarding"))), view := OnboardingView)
    ensures st.slot.Absent? ==>
      r == st.(slot := Present(NoSnapshot.(view := Some("onboarding"))), view := OnboardingView)
  {
    match st.slot
    case Unreadable => st
    case NotAnObject => st
    case Absent => st.(slot := Present(NoSnapshot.(view := Some("onboarding"))), view := OnboardingView)
    case Present(snap) => st.(slot := Present(snap.(view := Some("onboarding"))), view := OnboardingView)
  }

  // ---------------------------------------------------------------------
  // The whole shell as a transition system

  /** What the user can do. A login attempt carries the store's answers:
      the credential lookup, the catalogue and the user's grant rows. */
  datatype Event =
    | SubmitLogin(db: Store.Db, email: string, password: string, lookupOk: bool,
                  catalog: Option<seq<Tool>>, grantRows: Option<seq<Option<Tool>>>)
    | CompleteOnboarding(selected: seq<string>)
    | GoBackToOnboarding
    | LogOut

  /** Which events the current view offers. The onboarding and dashboard
      screens are only rendered with a user, and onboarding only offers a
      non-empty selection. */
  predicate Enabled(st: AppState, ev: Event) {
    match ev
    case SubmitLogin(_, _, _, _, _, _) => st.view == LoginView
    case CompleteOnboarding(sel) => st.view == OnboardingView && st.user.Some? && |sel| > 0
    case GoBackToOnboarding => st.view == ToolboxView && st.user.Some?
    case LogOut => st.view != LoginView
  }

  /** One step; an event the view does not offer changes nothing. The
      login screen calls the admin callback with no argument, so an
      admin's session carries no user. */
  function Next(st: AppState, ev: Event): AppState {
    if !Enabled(st, ev) then st
    else match ev
      case SubmitLogin(db, email, password, lookupOk, catalog, grantRows) =>
        (match Login.HandleLogin(db, email, password, lookupOk)
         case LoginFailed(_) => st
         case AdminLoggedIn => AdminLoginSuccess(st, None, catalog)
         case UserLoggedIn(u) => LoginSuccess(st, u, catalog, grantRows))
      case CompleteOnboarding(sel) => OnboardingComplete(st, sel)
      case GoBackToOnboarding => BackToOnboarding(st)
      case LogOut => Logout(st)
  }

  /** Boot from a stored slot, then process events in order. */
  function Run(slot: Slot, catalog: Option<seq<Tool>>, events: seq<Event>): AppState
    decreases |events|
  {
    if |events| == 0 then Restore(slot, catalog)
    else Next(Run(slot, catalog, events[..|events| - 1]), events[|events| - 1])
  }

  /** The stored snapshot restores the dashboard the user is looking at. */
  predicate SnapshotResumes(st: AppState) {
    && st.slot.Present?
    && st.slot.snap.view == Some("toolbox")
    && st.slot.snap.user == st.user
    && st.slot.snap.permittedTools.GetOr([]) == st.permittedTools
    && st.slot.snap.userCategories.GetOr([]) == st.userCategories
  }

  /** What every reachable state satisfies. */
  predicate Inv(st: AppState) {
    // the central invariant: the active tools are the permitted tools of the selected categories
    && st.activeTools == ToolsForCategories(st.permittedTools, st.userCategories)
    && (st.view == OnboardingView || st.view == ToolboxView ==> st.user.Some?)
    && (st.view == LoginView ==>
          st.user.None? && st.permittedTools == [] && st.userCategories == [] && st.activeTools == [])
    && (st.view == ToolboxView ==> SnapshotResumes(st))
  }

  lemma RestoreEstablishesInv(slot: Slot, catalog: Option<seq<Tool>>)
    ensures Inv(Restore(slot, catalog))
  {
    NoCategoriesNoTools([]);
    if slot.Present? {
      NoCategoriesNoTools(slot.snap.permittedTools.GetOr([]));
    }
  }

  lemma {:induction false} NextPreservesInv(st: AppState, ev: Event)
    requires Inv(st)
    ensures Inv(Next(st, ev))
  {
    if Enabled(st, ev) {
      match ev
      case SubmitLogin(db, email, password, lookupOk, catalog, grantRows) =>
        if grantRows.Some? {
          NoCategoriesNoTools(ActiveGrantedTools(grantRows.value));
        }
      case CompleteOnboarding(sel) =>
      case GoBackToOnboarding =>
      case LogOut =>
        NoCategoriesNoTools([]);
    }
  }

  /** Every state the shell can reach satisfies the invariant. */
  lemma {:induction false} RunKeepsInv(slot: Slot, catalog: Option<seq<Tool>>, events: seq<Event>)
    ensures Inv(Run(slot, catalog, events))
    decreases |events|
  {
    if |events| == 0 {
      RestoreEstablishesInv(slot, catalog);
    } else {
      RunKeepsInv(slot, catalog, events[..|events| - 1]);
      NextPreservesInv(Run(slot, catalog, events[..|events| - 1]), events[|events| - 1]);
    }
  }

  /** A reload while on the dashboard comes back to the same dashboard:
      same view, user, permitted tools, categories and active tools. */
  lemma ReloadResumesToolbox(st: AppState, catalog: Option<seq<Tool>>)
    requires Inv(st) && st.view == ToolboxView
    ensures var r := Restore(st.slot, catalog);
      r.view == ToolboxView && r.user == st.user && r.permittedTools == st.permittedTools &&
      r.userCategories == st.userCategories && r.activeTools == st.activeTools
  {
  }

  /** Snapshot round trip: the snapshot written when onboarding completes
      restores the dashboard that completion produced. */
  lemma OnboardingSnapshotRoundTrip(st: AppState, selected: seq<string>, catalog: Option<seq<Tool>>)
    requires st.user.Some?
    ensures var done := OnboardingComplete(st, selected);
      var r := Restore(done.slot, catalog);
      r.view == ToolboxView && r.user == st.user &&
      r.permittedTools == st.permittedTools && r.userCategories == selected &&
      r.activeTools == done.activeTools
  {
  }

  /** The admin branch is entered only by an admin login or by restoring an
      admin snapshot, and an admin login through the login screen stores a
      snapshot without a user. */
  lemma AdminLoginStoresNoUser(st: AppState, db: Store.Db, email: string, password: string,
                               catalog: Option<seq<Tool>>, grantRows: Option<seq<Option<Tool>>>)
    requires st.view == LoginView
    requires Login.HandleLogin(db, email, password, true).AdminLoggedIn?
    ensures var r := Next(st, SubmitLogin(db, email, password, true, catalog, grantRows));
      r.view == AdminView && r.adminUser.None? &&
      r.slot == Present(Snapshot(true, Some("admin"), None, None, None))
  {
  }

  /** Logging out clears the stored snapshot, so a reload starts at login. */
  lemma LogoutThenReloadStartsAtLogin(st: AppState, catalog: Option<seq<Tool>>)
    ensures Restore(Logout(st).slot, catalog) == Initial(Absent)
  {
  }

  /** Going back from the dashboard rewrites only the stored view, so a
      reload lands on onboarding with the same user and permitted tools. */
  lemma BackThenReloadResumesOnboarding(st: AppState, catalog: Option<seq<Tool>>)
    requires Inv(st) && st.view == ToolboxView
    ensures var r := Restore(BackToOnboarding(st).slot, catalog);
      r.view == OnboardingView && r.user == st.user && r.permittedTools == st.permittedTools
  {
  }
}

=== FILE: store.dfy ===
/** The hosted data store, abstracted to the rows the core decisions read
    and write. Every remote call is all-or-nothing: it either takes full
    effect or fails and changes nothing. Whether a call fails is not
    decided here; the handlers receive it as an explicit oracle. */
module Store {
  import opened Types

  /** A row of the profiles table. */
  datatype Profile = Profile(
    id: string,
    nome: string,
    email: string,
    senha: string,
    isActive: bool,
    isAdmin: bool)

  /** A row of the categories table. */
  datatype Category = Category(id: int, nome: string, descricao: string)

  /** The part of a tools-table row the core reads: which category it uses. */
  datatype ToolRow = ToolRow(id: int, categoryId: int)

  /** The whole remote state. A permission grant is a (profile id, tool id) pair. */
  datatype Db = Db(
    profiles: seq<Profile>,
    grants: set<(string, int)>,
    waiting: seq<WaitingUser>,
    categories: seq<Category>,
    toolRows: seq<ToolRow>)

  /** One remote call, as recorded in a handler's call trace. */
  datatype Call =
    | SelectProfiles
    | InsertProfile(profileId: string)
    | UpdateProfile(profileId: string)
    | DeleteProfile(profileId: string)
    | SelectWaiting
    | InsertWaiting(entryId: int)
    | UpdateWaiting(entryId: int, status: WaitingStatus)
    | DeleteGrants(profileId: string)
    | InsertGrants(profileId: string, toolIds: seq<int>)
    | SelectToolsOfCategory(categoryId: int)
    | DeleteCategory(categoryId: int)

  /** What a handler leaves behind: its outcome, the new remote state and
      the calls it made, in order. */
  datatype Effect<T> = Effect(outcome: T, db: Db, calls: seq<Call>)

  /** The tool ids granted to profile `pid`. */
  function GrantsOf(grants: set<(string, int)>, pid: string): set<int> {
    set g | g in grants && g.0 == pid :: g.1
  }

  /** The grants that belong to some other profile than `pid`. */
  function GrantsNotOf(grants: set<(string, int)>, pid: string): set<(string, int)> {
    set g | g in grants && g.0 != pid
  }

  /** A grant for each of `toolIds`, all held by `pid`. */
  function GrantRows(pid: string, toolIds: set<int>): set<(string, int)> {
    set t | t in toolIds :: (pid, t)
  }

  predicate HasProfileId(db: Db, id: string) {
    exists i :: 0 <= i < |db.profiles| && db.profiles[i].id == id
  }

  /** `delete().eq('id', id)` on profiles. */
  function DeleteProfileById(profiles: seq<Profile>, id: string): (r: seq<Profile>)
    ensures forall i :: 0 <= i < |r| ==> r[i].id != id
    ensures forall p :: p in profiles && p.id != id ==> p in r
    ensures forall p :: p in r ==> p in profiles
    decreases |profiles|
  {
    if |profiles| == 0 then []
    else if profiles[0].id == id then DeleteProfileById(profiles[1..], id)
    else [profiles[0]] + DeleteProfileById(profiles[1..], id)
  }

  /** `update({status}).eq('id', id)` on the waiting list. */
  function SetWaitingStatus(waiting: seq<WaitingUser>, id: int, st: WaitingStatus): (r: seq<WaitingUser>)
    ensures |r| == |waiting|
    ensures forall i :: 0 <= i < |r| ==>
      r[i] == if waiting[i].id == id then waiting[i].(status := st) else waiting[i]
  {
    seq(|waiting|, i requires 0 <= i < |waiting| =>
      if waiting[i].id == id then waiting[i].(status := st) else waiting[i])
  }
}

=== FILE: toolbox.dfy ===
/** The user dashboard: tool filtering by category and search text, the
    lock shown on tools the user was not granted, the category-filter
    reset, the tutorial-video list with its YouTube embed URLs, and the
    theme switch. Lower-casing is a parameter `lower`: its Unicode
    behaviour is not modelled. */
module Toolbox {
  import opened Wrappers
  import opened Types
  import opened Seqs

  const AllCategories := "all"

  predicate InCategory(t: Tool, selected: string) {
    selected == AllCategories || t.category == selected
  }

  /** An empty search matches everything; otherwise the lower-cased term
      must occur in the lower-cased name or description. */
  predicate InSearch(t: Tool, term: string, lower: string -> string) {
    term == "" || Contains(lower(t.name), lower(term)) || Contains(lower(t.description), lower(term))
  }

  predicate Shown(t: Tool, selected: string, term: string, lower: string -> string) {
    InCategory(t, selected) && InSearch(t, term, lower)
  }

  /** The tools on the dashboard: an order-preserving selection of the
      catalogue holding exactly the matching tools. */
  function FilteredTools(allTools: seq<Tool>, selected: string, term: string, lower: string -> string): (r: seq<Tool>)
    ensures IsSubseq(r, allTools)
    ensures forall i :: 0 <= i < |r| ==> r[i] in allTools && Shown(r[i], selected, term, lower)
    ensures forall i :: 0 <= i < |allTools| && Shown(allTools[i], selected, term, lower) ==> allTools[i] in r
    ensures selected == AllCategories && term == "" ==> r == allTools
  {
    var p := (t: Tool) => Shown(t, selected, term, lower);
    FilterIsSubseq(allTools, p);
    FilterKeepsAll(allTools, p);
    Filter(allTools, p)
  }

  /** A tool is locked exactly when no permitted tool has its id. */
  function IsLocked(t: Tool, permitted: seq<Tool>): (r: bool)
    ensures r <==> forall i :: 0 <= i < |permitted| ==> permitted[i].id != t.id
  {
    var ids := set p | p in permitted :: p.id;
    assert (forall i :: 0 <= i < |permitted| ==> permitted[i].id != t.id) ==> t.id !in ids;
    t.id !in ids
  }

  /** The category filter after the catalogue's category list changes: an
      empty list, or a choice that is neither 'all' nor listed, falls back
      to 'all'; a valid choice is kept. */
  function ResetCategory(categories: seq<string>, selected: string): (r: string)
    ensures r == AllCategories || (r in categories && r == selected)
    ensures |categories| == 0 ==> r == AllCategories
    ensures |categories| > 0 && (selected == AllCategories || selected in categories) ==> r == selected
  {
    if |categories| > 0 && selected !in categories && selected != AllCategories then AllCategories
    else if |categories| == 0 then AllCategories
    else selected
  }

  /** The reset is a fixed point after one application, so the effect that
      applies it settles at once. */
  lemma ResetCategoryIdempotent(categories: seq<string>, selected: string)
    ensures ResetCategory(categories, ResetCategory(categories, selected)) == ResetCategory(categories, selected)
  {
  }

  // ---------------------------------------------------------------------
  // Tutorial videos

  const EmbedPrefix := "https://www.youtube.com/embed/"

  /** `id` is the text after the first 'v=', up to the next 'v=' or the end. */
  predicate IsQueryId(url: string, id: string) {
    && IndexOf(url, "v=").Some?
    && var start := IndexOf(url, "v=").value + 2;
       && start + |id| <= |url|
       && url[start..start + |id|] == id
       && !Contains(id, "v=")
       && (start + |id| == |url| || OccursAt(url, "v=", start + |id|))
  }

  /** A shorter query-id candidate cannot be followed by a longer one: the
      'v=' that ends the shorter would lie inside (or straddle the end of)
      the longer. */
  lemma QueryIdPrefix(url: string, a: string, b: string)
    requires IsQueryId(url, a) && IsQueryId(url, b)
    requires |a| <= |b|
    ensures a == b
  {
    var start := IndexOf(url, "v=").value + 2;
    if |a| < |b| {
      var e := start + |a|;
      if |a| + 2 <= |b| {
        OccurrenceInside(url, b, start, |a|);
      } else {
        NoOverlappingVEquals(url, e);
      }
    }
  }

  /** An occurrence of 'v=' inside a stretch of the URL is an occurrence
      in that stretch. */
  lemma OccurrenceInside(url: string, b: string, start: nat, j: nat)
    requires start + |b| <= |url| && url[start..start + |b|] == b
    requires j + 2 <= |b| && OccursAt(url, "v=", start + j)
    ensures OccursAt(b, "v=", j)
  {
    assert b[j] == url[start + j] && b[j + 1] == url[start + j + 1];
    assert url[start + j..start + j + 2] == [url[start + j], url[start + j + 1]];
    assert b[j..j + 2] == [b[j], b[j + 1]];
  }

  /** Two occurrences of 'v=' cannot overlap. */
  lemma NoOverlappingVEquals(url: string, e: nat)
    requires OccursAt(url, "v=", e)
    ensures !OccursAt(url, "v=", e + 1)
  {
    assert url[e + 1] == url[e..e + 2][1] == '=';
  }

  /** `IsQueryId` fixes the id: at most one text satisfies it. */
  lemma QueryIdUnique(url: string, a: string, b: string)
    requires IsQueryId(url, a) && IsQueryId(url, b)
    ensures a == b
  {
    if |a| <= |b| { QueryIdPrefix(url, a, b); } else { QueryIdPrefix(url, b, a); }
  }

  /** `id` is the text after the last '/' (the whole text when there is none). */
  predicate IsLastSegment(url: string, id: string) {
    && |id| <= |url|
    && url[|url| - |id|..] == id
    && !Contains(id, "/")
    && (|id| == |url| || (|id| + 1 <= |url| && OccursAt(url, "/", |url| - |id| - 1)))
  }

  /** `IsLastSegment` fixes the segment: at most one text satisfies it. */
  lemma LastSegmentUnique(url: string, a: string, b: string)
    requires IsLastSegment(url, a) && IsLastSegment(url, b)
    requires |a| <= |b|
    ensures a == b
  {
    if |a| < |b| {
      SuffixKeepsSlash(url, b, |a|);
    }
  }

  /** A '/' that lies inside a suffix of the URL lies inside that suffix. */
  lemma SuffixKeepsSlash(url: string, b: string, n: nat)
    requires |b| <= |url| && url[|url| - |b|..] == b
    requires n < |b| && OccursAt(url, "/", |url| - n - 1)
    ensures OccursAt(b, "/", |b| - n - 1)
  {
  }

  /** The first 'v=' is followed by something other than another 'v=':
      only then is the text after it a non-empty query id. */
  predicate HasQueryId(url: string) {
    && IndexOf(url, "v=").Some?
    && var start := IndexOf(url, "v=").value + 2;
       start < |url| && !OccursAt(url, "v=", start)
  }

  /** `url.split('v=')[1] || url.split('/').pop()`: the query id when
      there is a non-empty one, otherwise the last path segment. */
  function VideoId(url: string): (id: string)
    ensures HasQueryId(url) ==> id != "" && IsQueryId(url, id)
    ensures !HasQueryId(url) ==> IsLastSegment(url, id)
  {
    var pieces := Split(url, "v=");
    QueryIdPiece(url);
    SplitLastPiece(url, "/");
    if |pieces| > 1 && pieces[1] != "" then pieces[1]
    else Last(Split(url, "/"))
  }

  /** `VideoId`'s description determines it: any text that is the query
      id (when there is one), or else the last path segment, is `VideoId`. */
  lemma VideoIdDetermined(url: string, id: string)
    ensures HasQueryId(url) && IsQueryId(url, id) ==> id == VideoId(url)
    ensures !HasQueryId(url) && IsLastSegment(url, id) ==> id == VideoId(url)
  {
    var v := VideoId(url);
    if HasQueryId(url) && IsQueryId(url, id) {
      QueryIdUnique(url, id, v);
    }
    if !HasQueryId(url) && IsLastSegment(url, id) {
      if |id| <= |v| { LastSegmentUnique(url, id, v); } else { LastSegmentUnique(url, v, id); }
    }
  }

  /** The second 'v=' piece is the query id, and it is non-empty exactly
      when `HasQueryId` holds. */
  lemma QueryIdPiece(url: string)
    ensures |Split(url, "v=")| > 1 <==> IndexOf(url, "v=").Some?
    ensures |Split(url, "v=")| > 1 ==>
      IsQueryId(url, Split(url, "v=")[1]) &&
      (Split(url, "v=")[1] != "" <==> HasQueryId(url))
  {
    FirstPieceFrom(url, "v=", 0);
    SplitPiecesFree(url, "v=");
    if |Split(url, "v=")| > 1 {
      SplitSecond(url, "v=");
      var start := IndexOf(url, "v=").value + 2;
      FirstPieceFrom(url, "v=", start);
      FirstPieceEmpty(url, "v=", start);
    }
  }

  /** A YouTube link's embed URL; nothing for a missing or empty URL or
      for a link that is not YouTube's. */
  function GetVideoSource(url: Option<string>): (r: Option<string>)
    ensures r.None? <==>
      url.None? || url.value == "" ||
      !(Contains(url.value, "youtube.com") || Contains(url.value, "youtu.be"))
    ensures r.Some? ==> r.value == EmbedPrefix + VideoId(url.value)
  {
    if url.None? || url.value == "" then None
    else if Contains(url.value, "youtube.com") || Contains(url.value, "youtu.be") then
      Some(EmbedPrefix + VideoId(url.value))
    else None
  }

  predicate HasTutorial(t: Tool) {
    t.video.Some? && t.video.value != "" && GetVideoSource(t.video).Some?
  }

  /** The tutorial list: the shown tools that have a playable video, in order. */
  function TutorialVideos(filtered: seq<Tool>): (r: seq<Tool>)
    ensures IsSubseq(r, filtered)
    ensures forall i :: 0 <= i < |r| ==> r[i] in filtered && GetVideoSource(r[i].video).Some?
    ensures forall i :: 0 <= i < |filtered| && GetVideoSource(filtered[i].video).Some? ==> filtered[i] in r
  {
    FilterIsSubseq(filtered, HasTutorial);
    Filter(filtered, HasTutorial)
  }

  /** The player's source after the tutorial list changes: the first
      tutorial's embed URL, or nothing when the list is empty. */
  function CurrentVideo(tutorials: seq<Tool>): (r: Option<string>)
    ensures r.Some? ==> |tutorials| > 0
  {
    if |tutorials| > 0 then GetVideoSource(tutorials[0].video) else None
  }

  /** The player shows a video exactly when some shown tool has a playable
      one, and then it plays the video of the first such tool. */
  lemma CurrentVideoIsFirstPlayable(filtered: seq<Tool>)
    ensures var r := CurrentVideo(TutorialVideos(filtered));
      r.Some? <==> exists i :: 0 <= i < |filtered| && GetVideoSource(filtered[i].video).Some?
    ensures var r := CurrentVideo(TutorialVideos(filtered));
      r.Some? ==> exists i :: 0 <= i < |filtered| && r == GetVideoSource(filtered[i].video) &&
                              forall j :: 0 <= j < i ==> GetVideoSource(filtered[j].video).None?
  {
    var tutorials := TutorialVideos(filtered);
    if exists i :: 0 <= i < |filtered| && GetVideoSource(filtered[i].video).Some? {
      var i :| 0 <= i < |filtered| && GetVideoSource(filtered[i].video).Some?;
      assert filtered[i] in tutorials;
    }
    if |tutorials| > 0 {
      FilterFirst(filtered, HasTutorial);
      var i :| 0 <= i < |filtered| && tutorials[0] == filtered[i] && HasTutorial(filtered[i]) &&
               forall j :: 0 <= j < i ==> !HasTutorial(filtered[j]);
      assert CurrentVideo(tutorials) == GetVideoSource(filtered[i].video);
    }
  }

  // ---------------------------------------------------------------------
  // Theme switch

  const Themes := ["dark", "light", "neon"]

  /** `Array.prototype.indexOf` on the theme list: -1 when absent. */
  function ThemeIndex(t: string): (r: int)
    ensures -1 <= r < |Themes|
    ensures r >= 0 ==> Themes[r] == t
    ensures r == -1 ==> t !in Themes
  {
    if t == "dark" then 0 else if t == "light" then 1 else if t == "neon" then 2 else -1
  }

  /** The next theme from the current page attribute (missing or empty
      reads as 'neon'). The index is never negative before `%`, so
      JavaScript's remainder agrees with Dafny's. */
  function NextTheme(attr: Option<string>): (r: string)
    ensures r in Themes
    ensures attr == Some("dark") ==> r == "light"
    ensures attr == Some("light") ==> r == "neon"
    ensures attr == Some("neon") ==> r == "dark"
    ensures attr.None? || attr == Some("") ==> r == "dark"
    ensures attr.Some? && attr.value !in Themes ==> r == "dark"
  {
    var current := if attr.Some? && attr.value != "" then attr.value else "neon";
    Themes[(ThemeIndex(current) + 1) % |Themes|]
  }

  /** Three switches bring any of the three themes back to itself. */
  lemma ThemeCycle(t: string)
    requires t in Themes
    ensures NextTheme(Some(NextTheme(Some(NextTheme(Some(t)))))) == t
  {
  }
}

=== FILE: types.dfy ===
/** The records the application exchanges with its data store, with their
    enumerated fields as datatypes. Each enumeration also has its wire
    spelling (the Portuguese strings stored in the database). */
module Types {
  import opened Wrappers

  /** A tool's difficulty tier. */
  datatype Difficulty = Basico | Intermediario | Avancado

  /** A tool's lifecycle status. */
  datatype ToolStatus = Ativo | Inativo

  /** The status of a registration request on the waiting list. */
  datatype WaitingStatus = Pendente | Aprovado | Rejeitado

  /** A listed user's level. The constructors share their names with
      `Difficulty`'s, so references outside a `match` qualify them. */
  datatype Level = Iniciante | Intermediario | Avancado

  /** A catalogued external tool. Ids are numbers; `video` is optional. */
  datatype Tool = Tool(
    id: int,
    name: string,
    description: string,
    category: string,
    icon: string,
    link: string,
    video: Option<string>,
    dificuldade: Difficulty,
    tooltip: string,
    status: ToolStatus)

  /** The authenticated session subject; its id is an opaque string. */
  datatype User = User(id: string, name: string)

  /** A registration request. */
  datatype WaitingUser = WaitingUser(
    id: int,
    nome: string,
    email: string,
    telefone: string,
    password: string,
    status: WaitingStatus)

  /** A user as the administrator lists it: it extends `User`, so it keeps
      the inherited `name` beside the profile's `nome`, and adds the level
      and the activity and admin flags. */
  datatype ActiveUser = ActiveUser(
    id: string,
    name: string,
    nome: string,
    email: string,
    nivel: Level,
    isActive: bool,
    isAdmin: bool)

  function DifficultyName(d: Difficulty): (s: string)
  {
    match d
    case Basico => "Básico"
    case Intermediario => "Intermediário"
    case Avancado => "Avançado"
  }

  /** Reads a stored difficulty; it is the inverse of the spelling table. */
  function ParseDifficulty(s: string): (r: Option<Difficulty>)
    ensures r.None? <==> forall x :: DifficultyName(x) != s
    ensures r.Some? ==> DifficultyName(r.value) == s
  {
    if s == DifficultyName(Difficulty.Basico) then Some(Difficulty.Basico)
    else if s == DifficultyName(Difficulty.Intermediario) then Some(Difficulty.Intermediario)
    else if s == DifficultyName(Difficulty.Avancado) then Some(Difficulty.Avancado)
    else None
  }

  function ToolStatusName(t: ToolStatus): (s: string)
  {
    match t
    case Ativo => "ativo"
    case Inativo => "inativo"
  }

  /** Reads a stored tool status; it is the inverse of the spelling table. */
  function ParseToolStatus(s: string): (r: Option<ToolStatus>)
    ensures r.None? <==> forall x :: ToolStatusName(x) != s
    ensures r.Some? ==> ToolStatusName(r.value) == s
  {
    if s == ToolStatusName(Ativo) then Some(Ativo)
    else if s == ToolStatusName(Inativo) then Some(Inativo)
    else None
  }

  function WaitingStatusName(w: WaitingStatus): (s: string)
  {
    match w
    case Pendente => "pendente"
    case Aprovado => "aprovado"
    case Rejeitado => "rejeitado"
  }

  /** Reads a stored request status; it is the inverse of the spelling table. */
  function ParseWaitingStatus(s: string): (r: Option<WaitingStatus>)
    ensures r.None? <==> forall x :: WaitingStatusName(x) != s
    ensures r.Some? ==> WaitingStatusName(r.value) == s
  {
    if s == WaitingStatusName(Pendente) then Some(Pendente)
    else if s == WaitingStatusName(Aprovado) then Some(Aprovado)
    else if s == WaitingStatusName(Rejeitado) then Some(Rejeitado)
    else None
  }

  function LevelName(l: Level): (s: string)
  {
    match l
    case Iniciante => "Iniciante"
    case Intermediario => "Intermediário"
    case Avancado => "Avançado"
  }

  /** Reads a stored user level; it is the inverse of the spelling table. */
  function ParseLevel(s: string): (r: Option<Level>)
    ensures r.None? <==> forall x :: LevelName(x) != s
    ensures r.Some? ==> LevelName(r.value) == s
  {
    if s == LevelName(Level.Iniciante) then Some(Level.Iniciante)
    else if s == LevelName(Level.Intermediario) then Some(Level.Intermediario)
    else if s == LevelName(Level.Avancado) then Some(Level.Avancado)
    else None
  }
}

=== FILE: wrappers.dfy ===
/** The optional-value datatype used wherever the application reads a
    value that may be `null`, `undefined` or absent. */
module Wrappers {

  datatype Option<+T> = None | Some(value: T) {

    /** The encapsulated value, or `default` when there is none
        (JavaScript's `x || default` for non-empty values). */
    function GetOr(default: T): T {
      match this
      case Some(v) => v
      case None => default
    }
  }
}
